=== FILE: README.md ===
# Request-approval workflow of the ermt service desk, in Dafny

This project models the server-side core of the ermt engineering-request
application:

- the request API: role-scoped listing, creation, and the status-changing
  update. The update applies an owner/role guard, the eight-state
  transition table `validTransitions`, and pushes entries onto the approval
  trail;
- the request-body validators and the `AppError` / `handleError` mapping;
- the cookie-based current user and the role guards `requireAuth`,
  `requireAdmin` and `requireSuperAdmin`;
- the `Authorization: Bearer` header parser;
- the page middleware that redirects dashboard pages to sign-in;
- the role filter of the dashboard menu;
- self sign-up, with its provider / department / section / discipline chain
  check, and the users API: account creation by a SUPERADMIN and the
  newest-first user listing.

Each route handler is a pure function. It takes the stored rows (a finite
map from id to row), the caller, the decoded JSON body and the current time.
It returns the reply, which is a plain-text status with a message or a JSON
value, together with the stored rows afterwards. JavaScript values in bodies
(`undefined`, `null`, numbers, strings, lists) and their truthiness are
modelled explicitly in `Json`. The ordered early-return checks of each
handler are stated as a list of `Http.Rule`s: the first broken rule decides
the reply, and every refusal leaves the store unchanged.

Files:

| file | module | contents |
|---|---|---|
| wrappers.dfy | Wrappers | `Option`, `Result`, `Outcome` |
| json.dfy | Json | JavaScript values, truthiness, property lookup, `\|\|` |
| http.dfy | Http | replies, ordered acceptance rules, `FirstBroken` |
| errors.dfy | Errors | `AppError`, `handleError` |
| validation.dfy | Validation | `validateRequired`, `validateEnum`, `validateId` |
| auth.dfy | Auth | roles, `getCurrentUser`, the three guards |
| bearer.dfy | Bearer | `getTokenFromHeader` |
| middleware.dfy | Middleware | dashboard prefixes, redirect-or-pass |
| nav.dfy | Nav | `useNavData` role filter |
| workflow.dfy | Workflow | statuses and the transition table |
| requests.dfy | Requests | GET, POST and PATCH of the request API |
| request_properties.dfy | RequestProperties | guard, table and trail properties; worked scenarios |
| trail_integrity.dfy | TrailIntegrity | the trail as a legal history; the append-only correction |
| accounts.dfy | Accounts | stored users, unique e-mails, the directory |
| signup.dfy | SignUp | the sign-up route |
| users.dfy | UsersApi | the users route (POST and GET) |

## Model

| member | source | states |
|---|---|---|
| Errors.NewAppError | src/lib/utils/error.ts:1-9 | An `AppError` keeps its message and carries status 400 unless a status code is given. |
| Errors.HandleError | src/lib/utils/error.ts:11-23 | An `AppError` is answered with its own status and message. Any other `Error` gets 500 with its message. A non-Error value gets 500 "Internal Server Error". |
| Errors.AppErrorSurfacesAs400 | src/lib/utils/error.ts:1-16 | An `AppError` made without a status reaches the client as 400 with exactly its message. |
| Errors.OnlyAppErrorsEscape500 | src/lib/utils/error.ts:11-23 | A reply other than 500 can only come from an `AppError` whose own status is not 500. |
| Validation.ValidateRequired | src/lib/utils/validation.ts:3-9 | Passes iff every listed field is truthy. On failure, the error is an `AppError` with status 400 and "<field> is required", for the first falsy field in list order. |
| Validation.FalsyCountsAsMissing | src/lib/utils/validation.ts:5 | A listed field holding any falsy value (`""`, 0, false, null, NaN) makes validation fail, whatever its type. |
| Validation.RequiredFailureIs400 | src/lib/utils/validation.ts:3-9 | A failure of `validateRequired` surfaces through `handleError` as a 400 reply. |
| Validation.ValidateEnum | src/lib/utils/validation.ts:11-15 | Fails iff the value is not in the allowed list, with "<field> must be one of: " and the values joined by ", ". |
| Validation.ValidateId | src/lib/utils/validation.ts:25-30 | A non-empty id is returned unchanged. A null or empty id fails with "<fieldName> is required" and status 400. |
| Auth.ParseRole | src/lib/utils/auth.ts:64-78 | A role string denotes USER, ADMIN or SUPERADMIN exactly when it is that name. |
| Auth.GetCurrentUser | src/lib/utils/auth.ts:11-28 | There is a user iff the cookie is present, non-empty and verifies. The user's id and role are the payload's `userId` and `role`. |
| Auth.RequireAuth | src/lib/utils/auth.ts:48-54 | Succeeds iff there is a current user, and returns that user. Otherwise it fails with the plain `Error("Unauthorized")`. |
| Auth.RequireSuperAdmin | src/lib/utils/auth.ts:64-70 | Succeeds iff there is a current user whose role is SUPERADMIN. Otherwise it fails with the plain `Error("Unauthorized")`. |
| Auth.RequireAdmin | src/lib/utils/auth.ts:72-78 | Succeeds iff there is a current user whose role is SUPERADMIN or ADMIN. Otherwise it fails with the plain `Error("Unauthorized")`. |
| Auth.GuardsAreNested | src/lib/utils/auth.ts:48-78 | Whoever `requireSuperAdmin` admits, `requireAdmin` admits, and whoever that admits, `requireAuth` admits. |
| Auth.GuardFailureIs500 | src/lib/utils/auth.ts:48-78 | A guard failure is a plain `Error`, so `handleError` answers it with 500 "Unauthorized", never 401 or 403. |
| Bearer.GetTokenFromHeader | src/lib/auth-utils.ts:49-54 | A token exists iff the header starts with the exact "Bearer ". The header is then "Bearer " followed by the token. |
| Bearer.HeaderRoundTrip | src/lib/auth-utils.ts:49-54 | Reading back "Bearer " + t gives t, including the empty t. |
| Bearer.HeaderDecodeUnique | src/lib/auth-utils.ts:49-54 | The parser yields token t iff the header is exactly "Bearer " + t. |
| Bearer.HeaderEdgeCases | src/lib/auth-utils.ts:50-53 | "Bearer " alone gives the empty token. "bearer abc", "Bearerabc", the empty header and no header give none. |
| Middleware.StartsWithAny | src/middleware.ts:12-18 | True iff one of the prefixes is a prefix of the path. |
| Middleware.Route | src/middleware.ts:7-38 | A request passes iff its path is not a dashboard page, or its token is present, non-empty and verifies. A redirect to sign-in carries the original URL as callback. |
| Middleware.RouteAgreesWithCurrentUser | src/middleware.ts:21-37 | On a dashboard page, the middleware lets a request through exactly when `getCurrentUser` would find a user for its cookie. |
| Middleware.PrefixMatchIsRaw | src/middleware.ts:12-18 | /users, /homepage and /requests/42 are protected. /sign-in and / are not. |
| Nav.FilterShownKeepsOrder | src/layouts/nav-config-dashboard.tsx:63 | The filter result is an order-preserving subsequence of the items. It contains exactly the items with no role list or whose list holds the role. |
| Nav.MenuShape | src/layouts/nav-config-dashboard.tsx:21-63 | For any role string, the menu is the full list for SUPERADMIN and ADMIN, and Dashboard, Users, Requests for every other string. |
| Nav.NavData | src/layouts/nav-config-dashboard.tsx:17-64 | The menu is a subsequence of the full list that always shows Dashboard, Users and Requests. It shows Providers iff the user's role is SUPERADMIN or ADMIN. |
| Nav.MenuByRole | src/layouts/nav-config-dashboard.tsx:19-63 | With no user, the menu is exactly Dashboard, Users, Requests. ADMIN and SUPERADMIN see everything. USER sees what an anonymous visitor sees. |
| Nav.DirectoryPagesTogether | src/layouts/nav-config-dashboard.tsx:32-63 | Providers, Departments, Sections and Disciplines are shown together or not at all. |
| Workflow.ParseStatus | app/api/requests/route.ts:14-15 | A name that parses denotes the status with exactly that persisted name. |
| Workflow.StatusNameRoundTrip | app/api/requests/route.ts:14-15 | Status names and statuses are in one-to-one correspondence. |
| Workflow.AdmitsIff | app/api/requests/route.ts:215-226 | `validTransitions[stored]?.includes(target)` holds iff the stored string names a status and the target is a string naming a legal successor of it. |
| Workflow.AdmitsLegal | app/api/requests/route.ts:215-226 | The table admits every legal transition given by its target's (non-empty) name. |
| Workflow.LegalExactlyListed | app/api/requests/route.ts:215-224 | The legal transitions are exactly the nine listed edges. No status moves to itself. APPROVED and REJECTED have no way out. |
| Workflow.UnknownOrSameAdmitsNothing | app/api/requests/route.ts:215-226 | A stored status that is not a key of the table admits nothing. Re-sending the stored status is never admitted. |
| Workflow.TransitionsMoveForward | app/api/requests/route.ts:215-224 | Every legal transition moves strictly forward along the review pipeline, so the graph has no cycles. |
| Workflow.PathSuccessor | app/api/requests/route.ts:215-224 | From each non-final stage of the approval path, the only ways out are the next stage and REJECTED. |
| Requests.List | app/api/requests/route.ts:29-91 | 401 iff there is no session. A SUPERADMIN gets every request. Any other role, ADMIN included, gets exactly the stored requests it created, unchanged. |
| Requests.MissingRequiredIff | app/api/requests/route.ts:118-122 | The handler's inline eleven-field test fails exactly when some required field is falsy. |
| Requests.Create | app/api/requests/route.ts:93-175 | 401 iff there is no session; 400 iff some of the eleven required fields is falsy; success iff a signed-in caller sends all eleven truthy; a refusal stores nothing. A created request is stored under its new id, owned by the caller, in PENDING_SUPERADMIN_REVIEW, with the one-entry trail "Request created". It carries exactly the eleven fields and `fileUrl` from the body. |
| Requests.ChangeEntry | app/api/requests/route.ts:237-244 | The pushed entry records the new status, the time and the caller. Its comment is the body's comment when truthy, else "Status changed to <status>". |
| Requests.Merge | app/api/requests/route.ts:231-235 | Every update-data key other than `approvalTrail` with a defined value overwrites its column. Every other column keeps its value. |
| Requests.LookupFailure | app/api/requests/route.ts:198-207 | A string id that names no request is answered 404 "Request not found"; an id of another type makes the lookup throw, answered 500 "Internal error". |
| Requests.CheckPatch | app/api/requests/route.ts:193-228 | The handler's checks, in their order, give exactly the first broken rule: no id 400, a string id naming no request 404 (an id of another type 500), guard 403, table 400, non-list trail 500. |
| Requests.Applied | app/api/requests/route.ts:231-246 | With a truthy status, the status is replaced and exactly one entry is appended to the old trail, overriding any body trail. Without one, the status stays, and the body's trail list, if any, replaces the trail. |
| Requests.Patch | app/api/requests/route.ts:177-275 | No session gives 401. Otherwise the first broken rule is the reply and the store is unchanged. Success comes iff no rule is broken, and then only the named request is rewritten, with the effects above. |
| RequestProperties.StrangerIsForbidden | app/api/requests/route.ts:209-212 | A caller who is neither an administrator nor the creator gets 403, whatever status is asked for, and nothing is written. |
| RequestProperties.NonStringIdIs500 | app/api/requests/route.ts:193-207 | A truthy numeric id gets 500 "Internal error" from the failed lookup, whatever the caller's role, and nothing is written. |
| RequestProperties.LegalTransitionSucceeds | app/api/requests/route.ts:209-245 | Whoever passes the guard, the creator included, can perform every legal transition, approval included, and the request then has the new status. |
| RequestProperties.SameStatusRejected | app/api/requests/route.ts:215-228 | Re-sending the stored status is answered 400 "Invalid status transition", even for an administrator, and nothing is written. |
| RequestProperties.FrozenStatusesStayFrozen | app/api/requests/route.ts:215-228 | A request stored as APPROVED, REJECTED or an unknown status refuses every truthy status change and writes nothing. |
| RequestProperties.StatusChangeAppendsOne | app/api/requests/route.ts:235-245 | A successful status change keeps the old trail as a prefix and adds exactly one entry. The entry records the new status, the caller and the time. |
| RequestProperties.NoStatusNoTrailEntry | app/api/requests/route.ts:231-245 | An update without a truthy status and without an `approvalTrail` field keeps status and trail as they were. |
| RequestProperties.UpdateTouchesOneRequest | app/api/requests/route.ts:231-233 | A PATCH never changes, adds or removes any request other than the one it names. |
| RequestProperties.AdminUpdatesWhatItCannotList | app/api/requests/route.ts:40-212 | An ADMIN may update a request of someone else's that its own listing does not show. |
| RequestProperties.CreatorListsOwnRequest | app/api/requests/route.ts:64-143 | A creator finds a request they just created in their own listing, whatever their role. |
| RequestProperties.CreateScenario | app/api/requests/route.ts:118-143 | A request created by u1 with all fields starts in PENDING_SUPERADMIN_REVIEW, owned by u1, with one trail entry. |
| RequestProperties.PromoteScenario | app/api/requests/route.ts:215-245 | A SUPERADMIN moves a fresh request to PENDING_ADMIN_REVIEW, and its trail then holds two entries. |
| RequestProperties.SkipScenario | app/api/requests/route.ts:215-228 | Moving a fresh request straight to ASSIGNED_TO_ENGINEER is refused with 400, even for a SUPERADMIN. |
| RequestProperties.RejectScenario | app/api/requests/route.ts:209-245 | A stranger's REJECTED is answered 403, while the creator's is accepted. |
| TrailIntegrity.PatchAppendOnly | app/api/requests/route.ts:231-245 | With the trail column protected, a successful update keeps the old trail as a prefix and adds at most one entry. |
| TrailIntegrity.CreateIsWellFormed | app/api/requests/route.ts:136-143 | Creation keeps every stored request's trail a legal history ending at its status. |
| TrailIntegrity.AdmittedAppendKeepsHistory | app/api/requests/route.ts:226-245 | Appending an entry for a status the table admits keeps the trail a legal history ending at the request's status. |
| TrailIntegrity.PatchAppendOnlyPreservesHistory | app/api/requests/route.ts:226-245 | The trail-protected update keeps every stored request's trail a legal history ending at its status. |
| TrailIntegrity.TrailIsShort | app/api/requests/route.ts:215-224 | A legal history holds at most seven entries, so a request changes status at most six times. |
| TrailIntegrity.StagesClimb | app/api/requests/route.ts:215-224 | The i-th entry of a legal history is at pipeline stage i or later. |
| TrailIntegrity.FollowsApprovalPath | app/api/requests/route.ts:215-224 | In a legal history ending at APPROVED, the i-th entry is the i-th stage of the approval path. |
| TrailIntegrity.ApprovalVisitsEveryStage | app/api/requests/route.ts:215-224 | An approved request's trail is exactly the seven stages, in order, each once. |
| TrailIntegrity.PatchAsWrittenErasesTrail | app/api/requests/route.ts:231-235 | As written, an owner's status-less update with an empty `approvalTrail` succeeds and erases a well-formed trail. |
| Accounts.Public | app/api/auth/sign-up/route.ts:88-93 | The reply carries the id, name, e-mail and role of the stored user, and no password. |
| Accounts.AddKeepsUniqueEmails | app/api/auth/sign-up/route.ts:28-34 | Adding a user whose e-mail is not taken keeps e-mails unique. |
| SignUp.CheckBody | app/api/auth/sign-up/route.ts:20-71 | The handler's checks, in order, give the first broken rule: missing fields, password mismatch, e-mail taken, then department, section and discipline. |
| SignUp.Register | app/api/auth/sign-up/route.ts:6-98 | The first broken rule is answered with 400 and nothing is stored. Otherwise exactly one account is added, with role USER, the body's fields and a hashed password, and the reply is its public view. |
| SignUp.RegisterKeepsUniqueEmails | app/api/auth/sign-up/route.ts:28-34 | Sign-up keeps e-mail addresses unique. |
| SignUp.BodyRoleIsIgnored | app/api/auth/sign-up/route.ts:80 | A `role` field in the body changes nothing about the outcome. |
| SignUp.AcceptedChainIsConsistent | app/api/auth/sign-up/route.ts:37-59 | An accepted department belongs to the given provider, and an accepted section to the given department. |
| SignUp.AbsentParentFilterIsDropped | app/api/auth/sign-up/route.ts:49-59 | A section sent with no `departmentId` at all is accepted if it exists anywhere. The same section with an empty `departmentId` is refused. |
| UsersApi.CheckCreate | app/api/users/route.ts:63-78 | The handler's checks, in order, give the first broken rule: guard 500, missing fields 400, e-mail taken 400. |
| UsersApi.CreateUser | app/api/users/route.ts:61-105 | The first broken rule is the reply and nothing is stored. Otherwise one account is added with the body's role (USER when it is falsy) and the body's fields, and the reply is its public view. |
| UsersApi.NonSuperAdminGets500 | app/api/users/route.ts:61-105 | A caller who is not a SUPERADMIN, or has no session, gets 500 "Internal error", not 401 or 403, and nothing is stored. |
| UsersApi.CreateUserKeepsUniqueEmails | app/api/users/route.ts:72-78 | Creation by a SUPERADMIN keeps e-mail addresses unique. |
| UsersApi.SignUpRefusesForeignDepartment | app/api/auth/sign-up/route.ts:37-47 | Sign-up refuses a department that exists but belongs to another provider with 400 "Invalid department". |
| UsersApi.NoDirectoryCheckUnlikeSignUp | app/api/users/route.ts:82-93 | The body that sign-up refuses, for its department of another provider, is accepted by creation, with the body's ADMIN role. |
| UsersApi.InsertNewestFirst | app/api/users/route.ts:50-52 | Inserting a row into a newest-first list keeps it newest first, adds one row, and keeps exactly the old rows plus the new one. |
| UsersApi.InsertKeepsIdsDistinct | app/api/users/route.ts:17-53 | Inserting a row whose id is new keeps the ids distinct. |
| UsersApi.ListUsers | app/api/users/route.ts:13-59 | No current user gives 500 "Unauthorized". Otherwise every stored user appears exactly once, with its stored columns, ordered newest first. |

Points where the handler code behaves differently from what a reader of
the workflow might expect; the model follows the code:

- The guard (403) runs before the transition check
  (app/api/requests/route.ts:210-228), and only a truthy status is checked
  against the table (line 226). An empty-string or `false` status changes
  neither the status nor the trail's entries beyond what the update data
  sets: the update data is still written (lines 233-234).
- The table has no self loops (app/api/requests/route.ts:215-224), so
  re-sending the stored status is answered 400. It is not treated as "no
  status change".
- The default trail comment is used when the comment is falsy (`||`,
  app/api/requests/route.ts:242), not only when it is missing.
- A non-SUPERADMIN caller of the users POST gets 500 "Internal error"
  (app/api/users/route.ts:63, 101-104): that route's own `catch` answers every
  exception with 500 "Internal error" without calling `handleError`. The users
  GET answers a missing user with 500 "Unauthorized"
  (app/api/users/route.ts:15, 57), because `requireAuth` throws a plain
  `Error` (src/lib/utils/auth.ts:51) and `handleError` maps every error that is
  not an `AppError` to 500 with its message.
- An ADMIN lists only its own requests (app/api/requests/route.ts:40-84),
  yet may update any request (line 210).
- The trail is not append-only (app/api/requests/route.ts:233-234): see
  Findings.

## Left out

- Prisma `include` / `select` relation projections (the creator, provider, department, section and discipline names in replies) are display only and not modelled. So is the `updatedAt` column that the users GET selects (app/api/users/route.ts:48): `UsersApi.UserRow` carries the other selected columns but not this one.
- Requests.Patch: the database client's validation of the update data is left out. A field of the wrong type, a key that names no column (such as `noSuchColumn`) and a relation object (such as `user` or `provider`) are all written as sent, and the model answers 200. The client would reject each with a validation error, which the `catch` answers with 500 (app/api/requests/route.ts:271-274).
- Requests.CheckPatch: an `approvalTrail` in the update data is modelled as a list of trail records, and the model refuses every other value with 500. This includes a list whose elements are not trail records (such as `[1]`), which the JSON-list column would store as sent. It also includes the list-update objects `{ push: e }` and `{ set: [...] }`: in a PATCH without a status the database client would append `e` to the trail, or replace the trail, and answer 200 with the status unchanged.
- Requests.Patch: because those list-update objects are refused, the model does not show that a status-less PATCH with `{ approvalTrail: { push: e } }` lets the caller add a forged trail entry of any content. Only the plain-list form of writing the trail directly is modelled (see Findings).
- Lookups with a wrongly typed argument in sign-up and user creation (a non-string e-mail, department, section or discipline id, or parent filter) are treated as finding no row. The database client would reject them with a validation error, which the handlers' `catch` answers with 500. Only the PATCH lookup by id models that 500.
- Requests.Create: the database client's validation of the new row is left out. A required field of the wrong type (such as a number for `title`) is stored as sent, and the model answers 200, where the client's validation error would reach the `catch` and give 500 (app/api/requests/route.ts:171-174). Foreign keys are not checked either: a `providerId` or `departmentId` that names no row is stored as sent, where the database would most likely refuse the insert, giving the same 500.
- SignUp.Register: column values are stored as sent. A truthy `name` that is not a string (such as the number 5), or a wrongly typed `providerId`, `departmentId`, `sectionId` or `disciplineId`, is stored and answered 200. `prisma.user.create` would reject it with a validation error, and the `catch` would answer 500 "Internal error" (app/api/auth/sign-up/route.ts:75-97). Foreign keys are not checked either: an id that names no row is stored as sent, where the database would most likely refuse the insert, giving the same 500.
- UsersApi.CreateUser: column values are stored as sent. A truthy `name` that is not a string, a `role` that is not a string (such as 7), or a role string that is none of `USER`, `ADMIN` and `SUPERADMIN` (if the column is the role enumeration), is stored and answered 200. `prisma.user.create` would reject it with a validation error, and the `catch` would answer 500 "Internal error" (app/api/users/route.ts:82-104). Foreign keys are not checked either: a `providerId`, `departmentId`, `sectionId` or `disciplineId` that names no row is stored as sent, where the database would most likely refuse the insert, giving the same 500.
- A stored status that names a property of `Object.prototype` (such as "toString") makes the handler's `?.includes` throw, giving 500. The model treats every unknown stored status alike (400). The database only ever stores the eight names.
- Dates: `new Date(...)` conversion of the two required dates, `validateDate` and the system clock are left out. Dates are stored as given, and `now` is a parameter.
- Password hashing is symbolic (`Hashed`), so any truthy password is accepted. A truthy password that is not a string (such as the number 5) makes `hash(password, 12)` throw, and the route answers 500 (app/api/auth/sign-up/route.ts:73, app/api/users/route.ts:80). The model stores it as `Hashed(Num(5))` and answers 200. JWT signing and verification, cookies and `getServerSession` are not modelled: token verification is a function parameter, and the session's principal is an input.
- `getCurrentUserFromRequest` and `requireAuthFromRequest` are left out. They read the same cookie from the request object and run the same logic as `getCurrentUser` and `requireAuth`.
- `generateToken`, `verifyToken`, `hashPassword` and `verifyPassword` are credential plumbing and are left out.
- Database-generated ids are a parameter. Each create requires that the new id is not yet stored.
- Concurrency is left out: handlers run one at a time, so racing updates that lose a trail push are not modelled.
- Persistence failures answered 500 by the `catch` blocks are modelled in two cases: a non-list `approvalTrail` in PATCH and a non-string id in the PATCH lookup. Failures of the database itself are left out. The users POST also answers 500 for a guard failure, which the model includes, but that is not a persistence failure.
- Values other than strings, numbers, booleans, null and trail lists are a single `Composite` value, compared structurally rather than by reference. Fractional numbers are not distinguished, and NaN is only falsy.
- The middleware's `matcher` configuration (which paths the middleware runs on at all) and the URL encoding of the sign-in redirect are left out. The redirect records the original URL as its callback.
- The providers, departments, sections and disciplines routes, the login, me and test routes, and all user-interface code are outside this model.
- Middleware.Route: the redirect target is represented only by its callback URL, not as a full `/sign-in?callbackUrl=...` URL.

## Findings

| source | as written | input that shows it | evidently intended | confidence | as-written member | corrected member |
|---|---|---|---|---|---|---|
| app/api/requests/route.ts:231-235 | The update data (the body minus `id`, `status` and `comment`) is spread into the update, so a PATCH without a status may set `approvalTrail` directly: it can erase the trail with a list, or forge an entry with the list-update object `{ push: ... }`. | The creator of a fresh request sends `{ id: "r1", approvalTrail: [] }`: the reply is a success and the trail is empty. Sending `{ id: "r1", approvalTrail: { push: { status: "APPROVED", ... } } }` instead would add a forged entry; the model refuses that form with 500 (see Left out). | The approval trail is append-only: only a status change touches it, by pushing one entry. | not executed | TrailIntegrity.PatchAsWrittenErasesTrail | TrailIntegrity.PatchAppendOnly |

The corrected update ignores the body's `approvalTrail` field.
`TrailIntegrity.PatchAppendOnlyPreservesHistory` proves that it keeps every
stored trail a legal history.

=== FILE: accounts.dfy ===
/** Stored user accounts and the provider / department / section /
    discipline directory that sign-up checks against. */
module Accounts {
  import opened Json

  /** A stored password digest; hashing itself is not modelled. */
  datatype Secret = Hashed(password: Value)

  /** A stored user. Every column except the password is kept as the value
      it was created with. */
  datatype Account = Account(
    name: Value, email: Value, password: Secret, role: Value,
    providerId: Value, departmentId: Value, sectionId: Value, disciplineId: Value,
    createdAt: Instant)

  /** Stored users by id. */
  type Users = map<string, Account>

  /** What the user-creating handlers send back: no password. */
  datatype PublicUser = PublicUser(id: string, name: Value, email: Value, role: Value)

  function Public(id: string, a: Account): (u: PublicUser)
    ensures u.id == id && u.name == a.name && u.email == a.email && u.role == a.role
  {
    PublicUser(id, a.name, a.email, a.role)
  }

  /** `findUnique({ where: { email } })` finds a user. */
  predicate EmailTaken(users: Users, email: Value) {
    exists id :: id in users && users[id].email == email
  }

  /** No two users share an e-mail address (a unique column). */
  predicate UniqueEmails(users: Users) {
    forall a, b :: a in users && b in users && a != b ==> users[a].email != users[b].email
  }

  /** Adding a user whose e-mail is not taken keeps e-mails unique. */
  lemma AddKeepsUniqueEmails(users: Users, id: string, a: Account)
    requires UniqueEmails(users)
    requires id !in users && !EmailTaken(users, a.email)
    ensures UniqueEmails(users[id := a])
  {
  }

  /** The organisational directory: each table maps a row id to its parent's
      id (department to provider, section to department, discipline to section). */
  datatype Directory = Directory(
    departments: map<string, string>,
    sections: map<string, string>,
    disciplines: map<string, string>)

  /** `findFirst({ where: { id, <parent>: filter } })` over one table. Only a
      string id can match a row; a parent filter whose value is `undefined`
      is dropped by the query builder and constrains nothing. */
  predicate RowUnder(rows: map<string, string>, id: Value, filter: Value) {
    id.Str? && id.s in rows && (filter == Undefined || filter == Str(rows[id.s]))
  }
}

=== FILE: auth.dfy ===
/** Roles, principals and the role guards of src/lib/utils/auth.ts. Token
    verification is an oracle passed in as a function. */
module Auth {
  import opened Wrappers
  import opened Errors
  import opened Http

  /** A role as carried by a session or token. The code only ever compares a
      role with the three names, so every other string is `Unrecognized`. */
  datatype Role = User | Admin | SuperAdmin | Unrecognized

  /** The role a role string denotes. */
  function ParseRole(s: string): (r: Role)
    ensures r == User <==> s == "USER"
    ensures r == Admin <==> s == "ADMIN"
    ensures r == SuperAdmin <==> s == "SUPERADMIN"
  {
    if s == "USER" then User
    else if s == "ADMIN" then Admin
    else if s == "SUPERADMIN" then SuperAdmin
    else Unrecognized
  }

  /** The roles that may administer: SUPERADMIN and ADMIN. */
  predicate AdminRole(r: Role) {
    r == SuperAdmin || r == Admin
  }

  /** The authenticated caller. */
  datatype Principal = Principal(id: string, role: Role)

  /** The claims a verified token carries (e-mail and expiry are not used here). */
  datatype Payload = Payload(userId: string, role: string)

  /** `getCurrentUser`: the `auth-token` cookie, verified by `verify`. A
      missing or empty cookie, or one that fails verification, gives no user. */
  function GetCurrentUser(cookie: Option<string>, verify: string -> Option<Payload>): (r: Option<Principal>)
    ensures r.Some? <==> cookie.Some? && cookie.value != "" && verify(cookie.value).Some?
    ensures r.Some? ==> r.value.id == verify(cookie.value).value.userId
                        && r.value.role == ParseRole(verify(cookie.value).value.role)
  {
    if cookie.None? || cookie.value == "" then None
    else
      match verify(cookie.value)
      case None => None
      case Some(p) => Some(Principal(p.userId, ParseRole(p.role)))
  }

  /** The error every guard throws: a plain `Error`, not an `AppError`. */
  const Unauthorized: Thrown := PlainError("Unauthorized")

  /** `requireAuth`: fails iff there is no current user. */
  function RequireAuth(current: Option<Principal>): (r: Result<Principal, Thrown>)
    ensures r.Success? <==> current.Some?
    ensures r.Success? ==> r.value == current.value
    ensures r.Failure? ==> r.error == PlainError("Unauthorized")
  {
    if current.None? then Failure(Unauthorized) else Success(current.value)
  }

  /** `requireSuperAdmin`: admits exactly the role SUPERADMIN. */
  function RequireSuperAdmin(current: Option<Principal>): (r: Result<Principal, Thrown>)
    ensures r.Success? <==> current.Some? && current.value.role == SuperAdmin
    ensures r.Success? ==> r.value == current.value
    ensures r.Failure? ==> r.error == PlainError("Unauthorized")
  {
    match RequireAuth(current)
    case Failure(e) => Failure(e)
    case Success(u) => if u.role != SuperAdmin then Failure(Unauthorized) else Success(u)
  }

  /** `requireAdmin`: admits exactly the roles SUPERADMIN and ADMIN. */
  function RequireAdmin(current: Option<Principal>): (r: Result<Principal, Thrown>)
    ensures r.Success? <==> current.Some? && AdminRole(current.value.role)
    ensures r.Success? ==> r.value == current.value
    ensures r.Failure? ==> r.error == PlainError("Unauthorized")
  {
    match RequireAuth(current)
    case Failure(e) => Failure(e)
    case Success(u) => if u.role != SuperAdmin && u.role != Admin then Failure(Unauthorized) else Success(u)
  }

  /** The guards form a chain: whoever `requireSuperAdmin` admits,
      `requireAdmin` admits, and whoever that admits, `requireAuth` admits. */
  lemma GuardsAreNested(current: Option<Principal>)
    ensures RequireSuperAdmin(current).Success? ==> RequireAdmin(current).Success?
    ensures RequireAdmin(current).Success? ==> RequireAuth(current).Success?
  {
  }

  /** A guard failure reaches `handleError` as a plain `Error`, so the caller
      sees 500 "Unauthorized", never 401 or 403. */
  lemma GuardFailureIs500<T>(current: Option<Principal>)
    requires RequireAdmin(current).Failure?
    ensures HandleError<T>(RequireAdmin(current).error) == Text(500, "Unauthorized")
    ensures RequireSuperAdmin(current).Failure?
    ensures HandleError<T>(RequireSuperAdmin(current).error) == Text(500, "Unauthorized")
  {
  }
}

=== FILE: bearer.dfy ===
/** `getTokenFromHeader` (src/lib/auth-utils.ts): the token of an
    `Authorization: Bearer <token>` header. */
module Bearer {
  import opened Wrappers

  /** The exact, case-sensitive scheme prefix, space included. */
  const Scheme: string := "Bearer "

  /** A missing or empty header, or one that does not start with the scheme,
      gives no token; otherwise the token is everything after the scheme. */
  function GetTokenFromHeader(header: Option<string>): (r: Option<string>)
    ensures r.Some? <==> header.Some? && Scheme <= header.value
    ensures r.Some? ==> header.value == Scheme + r.value
  {
    if header.None? || header.value == "" || !(Scheme <= header.value) then None
    else Some(header.value[|Scheme|..])
  }

  /** Building a header from a token and reading it back gives the token,
      including the empty token. */
  lemma HeaderRoundTrip(token: string)
    ensures GetTokenFromHeader(Some(Scheme + token)) == Some(token)
  {
    assert Scheme <= Scheme + token;
  }

  /** A header yields a token exactly when it is the scheme followed by it. */
  lemma {:induction false} HeaderDecodeUnique(header: Option<string>, token: string)
    ensures GetTokenFromHeader(header) == Some(token) <==> header == Some(Scheme + token)
  {
    if header == Some(Scheme + token) {
      HeaderRoundTrip(token);
    }
  }

  /** Edge cases: the scheme alone gives the empty token; a lower-case scheme
      or a missing space gives none. */
  lemma HeaderEdgeCases()
    ensures GetTokenFromHeader(Some("Bearer ")) == Some("")
    ensures GetTokenFromHeader(Some("bearer abc")) == None
    ensures GetTokenFromHeader(Some("Bearerabc")) == None
    ensures GetTokenFromHeader(Some("")) == None
    ensures GetTokenFromHeader(None) == None
  {
    assert "bearer abc"[0] != Scheme[0];
    assert "Bearerabc"[6] != Scheme[6];
  }
}

=== FILE: errors.dfy ===
/** The application's error class and the mapping from a thrown value to a
    reply (src/lib/utils/error.ts). */
module Errors {
  import opened Wrappers
  import opened Http

  /** What a handler can catch: an `AppError`, any other `Error`, or a thrown
      value that is not an `Error` at all. */
  datatype Thrown =
    | AppError(message: string, statusCode: int)
    | PlainError(message: string)
    | NonError

  /** The status code an `AppError` carries when none is given. */
  const DefaultAppStatus: int := 400

  /** `new AppError(message, statusCode?)`. */
  function NewAppError(message: string, statusCode: Option<int>): (e: Thrown)
    ensures e.AppError? && e.message == message
    ensures statusCode.None? ==> e.statusCode == 400
    ensures statusCode.Some? ==> e.statusCode == statusCode.value
  {
    AppError(message, if statusCode.Some? then statusCode.value else DefaultAppStatus)
  }

  /** `handleError`: an `AppError` keeps its own message and status code; any
      other `Error` keeps its message with 500; anything else becomes a
      generic 500. */
  function HandleError<T>(e: Thrown): (r: Response<T>)
    ensures r.Text?
    ensures e.AppError? ==> r.Status() == e.statusCode && r.message == e.message
    ensures !e.AppError? ==> r.Status() == 500
    ensures e.PlainError? ==> r.message == e.message
    ensures e.NonError? ==> r.message == "Internal Server Error"
  {
    match e
    case AppError(m, c) => Text(c, m)
    case PlainError(m) => Text(500, m)
    case NonError => Text(500, "Internal Server Error")
  }

  /** An `AppError` made without a status code surfaces as a 400 reply with
      exactly the message it was made with. */
  lemma AppErrorSurfacesAs400<T>(message: string)
    ensures HandleError<T>(NewAppError(message, None)) == Text(400, message)
  {
  }

  /** Only an `AppError` can produce a reply other than 500. */
  lemma OnlyAppErrorsEscape500<T>(e: Thrown)
    ensures HandleError<T>(e).Status() != 500 ==> e.AppError? && e.statusCode != 500
  {
  }
}

=== FILE: http.dfy ===
/** Handler replies, and the ordered acceptance rules every handler applies. */
module Http {
  import opened Wrappers

  /** What a route handler sends back: a plain-text reply with a status code,
      or a JSON body (sent with status 200). */
  datatype Response<+T> = Text(code: int, message: string) | Ok(value: T) {
    function Status(): int {
      if Text? then code else 200
    }
  }

  /** A reply together with the persisted state after the handler ran. */
  datatype Step<+T, S> = Step(response: Response<T>, state: S)

  /** One acceptance rule of a handler and the reply sent when it is broken. */
  datatype Rule = Rule(holds: bool, code: int, message: string)

  /** The first broken rule in list order, if any: handlers check their rules
      one after another and the first failure decides the reply. */
  function FirstBroken(rules: seq<Rule>): (r: Option<Rule>)
    ensures r.None? <==> forall i :: 0 <= i < |rules| ==> rules[i].holds
    ensures r.Some? ==> !r.value.holds
    ensures r.Some? ==> exists i :: 0 <= i < |rules| && rules[i] == r.value
                                    && forall j :: 0 <= j < i ==> rules[j].holds
  {
    if |rules| == 0 then None
    else if !rules[0].holds then Some(rules[0])
    else
      var rest := FirstBroken(rules[1..]);
      assert rest.Some? ==> exists i :: 1 <= i < |rules| && rules[i] == rest.value
                                        && forall j :: 0 <= j < i ==> rules[j].holds by {
        if rest.Some? {
          var k :| 0 <= k < |rules| - 1 && rules[1..][k] == rest.value
                   && forall j :: 0 <= j < k ==> rules[1..][j].holds;
          assert rules[k + 1] == rest.value;
          forall j | 0 <= j < k + 1 ensures rules[j].holds {
            if j > 0 { assert rules[j] == rules[1..][j - 1]; }
          }
        }
      }
      rest
  }

  /** The rule at index `i` is the first broken one exactly when every rule
      before it holds and it does not. */
  lemma {:induction false} FirstBrokenAt(rules: seq<Rule>, i: nat)
    requires i < |rules| && !rules[i].holds
    requires forall j :: 0 <= j < i ==> rules[j].holds
    ensures FirstBroken(rules) == Some(rules[i])
  {
    if i > 0 {
      assert rules[0].holds;
      assert rules[1..][i - 1] == rules[i];
      forall j | 0 <= j < i - 1 ensures rules[1..][j].holds {
        assert rules[1..][j] == rules[j + 1];
      }
      FirstBrokenAt(rules[1..], i - 1);
    }
  }

  /** The plain-text reply for a broken rule. */
  function Refuse<T>(rule: Rule): (r: Response<T>)
    ensures r.Text? && r.Status() == rule.code && r.message == rule.message
  {
    Text(rule.code, rule.message)
  }
}

=== FILE: json.dfy ===
/** The part of JavaScript value semantics the route handlers rely on:
    decoded JSON request bodies, property lookup that yields `undefined`
    for a missing key, and truthiness as used by `!x`, `x && y`, `x || y`. */
module Json {

  /** A point in time (a JavaScript `Date`); the model only stores them. */
  type Instant = int

  /** One record of a request's approval trail, stored in a JSON list column.
      It is declared beside `Value` because the two are mutually recursive:
      a record's comment is a value, and a body value may be a list of records. */
  datatype TrailEntry = TrailEntry(status: string, timestamp: Instant, userId: string, comment: Value)

  /** A JavaScript value as it appears in a decoded body or a stored column. */
  datatype Value =
    | Undefined
    | Null
    | Bool(b: bool)
    | Num(n: int)                       // a finite number; fractions change no rule here
    | NaN
    | Str(s: string)
    | EntryList(entries: seq<TrailEntry>) // an array of approval-trail records
    | Composite                         // any other object or array

  /** JavaScript truthiness: `!v` is `!Truthy(v)`. */
  predicate Truthy(v: Value) {
    match v
    case Undefined => false
    case Null => false
    case NaN => false
    case Bool(b) => b
    case Num(n) => n != 0
    case Str(s) => s != ""
    case EntryList(_) => true
    case Composite => true
  }

  /** A decoded JSON object body: property name to value. */
  type Body = map<string, Value>

  /** `body[key]`: a missing property reads as `undefined`. */
  function Get(body: Body, key: string): (v: Value)
    ensures key !in body ==> v == Undefined
    ensures key in body ==> v == body[key]
  {
    if key in body then body[key] else Undefined
  }

  /** `a || b` on values: the left operand when truthy, else the right one. */
  function Or(a: Value, b: Value): (r: Value)
    ensures Truthy(a) ==> r == a
    ensures !Truthy(a) ==> r == b
  {
    if Truthy(a) then a else b
  }
}

=== FILE: middleware.dfy ===
/** The page middleware (src/middleware.ts): dashboard pages need a verified
    `auth-token` cookie; otherwise the browser is sent to the sign-in page. */
module Middleware {
  import opened Wrappers
  import opened Auth

  /** Path prefixes of the dashboard, matched as raw string prefixes. */
  const DashboardPrefixes: seq<string> :=
    ["/home", "/providers", "/departments", "/sections", "/disciplines", "/requests", "/user"]

  /** Whether some prefix in the list starts the path. */
  function StartsWithAny(prefixes: seq<string>, path: string): (r: bool)
    ensures r <==> exists i :: 0 <= i < |prefixes| && prefixes[i] <= path
  {
    if |prefixes| == 0 then false
    else if prefixes[0] <= path then true
    else
      var rest := StartsWithAny(prefixes[1..], path);
      assert rest ==> exists i :: 0 <= i < |prefixes| && prefixes[i] <= path by {
        if rest {
          var k :| 0 <= k < |prefixes| - 1 && prefixes[1..][k] <= path;
          assert prefixes[k + 1] == prefixes[1..][k];
        }
      }
      assert (exists i :: 0 <= i < |prefixes| && prefixes[i] <= path) ==> rest by {
        if exists i :: 0 <= i < |prefixes| && prefixes[i] <= path {
          var k :| 0 <= k < |prefixes| && prefixes[k] <= path;
          assert k != 0;
          assert prefixes[1..][k - 1] == prefixes[k];
        }
      }
      rest
  }

  /** `isDashboardPage`. */
  predicate IsDashboardPage(path: string) {
    StartsWithAny(DashboardPrefixes, path)
  }

  /** What the middleware does with a page request. */
  datatype Decision =
    | PassThrough
    | RedirectToSignIn(callbackUrl: string)   // `/sign-in?callbackUrl=<original url>`

  /** `middleware`: a dashboard page without a non-empty, verified token is
      redirected to sign-in with the original URL as callback; every other
      request passes through. */
  function Route(path: string, url: string, token: Option<string>,
                 verify: string -> Option<Payload>): (d: Decision)
    ensures d.PassThrough? <==>
              !IsDashboardPage(path) || (token.Some? && token.value != "" && verify(token.value).Some?)
    ensures d.RedirectToSignIn? ==> d.callbackUrl == url
  {
    if IsDashboardPage(path) then
      if token.None? || token.value == "" then RedirectToSignIn(url)
      else if verify(token.value).None? then RedirectToSignIn(url)
      else PassThrough
    else PassThrough
  }

  /** The middleware admits a dashboard page exactly when the cookie would
      also yield a current user. */
  lemma RouteAgreesWithCurrentUser(path: string, url: string, token: Option<string>,
                                   verify: string -> Option<Payload>)
    requires IsDashboardPage(path)
    ensures Route(path, url, token, verify).PassThrough? <==> GetCurrentUser(token, verify).Some?
  {
  }

  /** The prefix match is raw: pages merely starting with a protected word
      are protected too, while the auth pages are not. */
  lemma PrefixMatchIsRaw()
    ensures IsDashboardPage("/users")
    ensures IsDashboardPage("/homepage")
    ensures IsDashboardPage("/requests/42")
    ensures !IsDashboardPage("/sign-in")
    ensures !IsDashboardPage("/")
  {
    assert DashboardPrefixes[6] <= "/users";
    assert DashboardPrefixes[0] <= "/homepage";
    assert DashboardPrefixes[5] <= "/requests/42";
    forall i | 0 <= i < |DashboardPrefixes| ensures !(DashboardPrefixes[i] <= "/sign-in") {
      assert DashboardPrefixes[i][1] != 's' || DashboardPrefixes[i][2] != 'i';
    }
    forall i | 0 <= i < |DashboardPrefixes| ensures !(DashboardPrefixes[i] <= "/") {
      assert |DashboardPrefixes[i]| > 1;
    }
  }
}

=== FILE: nav.dfy ===
/** The dashboard navigation menu (src/layouts/nav-config-dashboard.tsx):
    a fixed item list filtered by the signed-in user's role. */
module Nav {
  import opened Wrappers

  /** A menu entry; `roles`, when present, lists the roles that may see it. */
  datatype NavItem = NavItem(title: string, path: string, roles: Option<seq<string>>)

  const AdminRoles: seq<string> := ["SUPERADMIN", "ADMIN"]

  const Dashboard: NavItem := NavItem("Dashboard", "/home", None)
  const Users: NavItem := NavItem("Users", "/user", None)
  const Providers: NavItem := NavItem("Providers", "/providers", Some(AdminRoles))
  const Departments: NavItem := NavItem("Departments", "/departments", Some(AdminRoles))
  const Sections: NavItem := NavItem("Sections", "/sections", Some(AdminRoles))
  const Disciplines: NavItem := NavItem("Disciplines", "/disciplines", Some(AdminRoles))
  const Requests: NavItem := NavItem("Requests", "/requests", None)

  /** The full menu, in display order. */
  const NavItems: seq<NavItem> :=
    [Dashboard, Users, Providers, Departments, Sections, Disciplines, Requests]

  /** `!item.roles || item.roles.includes(role)`. */
  predicate Shown(item: NavItem, role: string) {
    item.roles.None? || role in item.roles.value
  }

  /** `a` is `b` with some elements dropped and the rest kept in order
      (each element of `a` matched to the earliest possible one of `b`). */
  predicate IsSubsequence<T(==)>(a: seq<T>, b: seq<T>)
    decreases |b|
  {
    if |b| == 0 then |a| == 0
    else if |a| > 0 && a[0] == b[0] then IsSubsequence(a[1..], b[1..])
    else IsSubsequence(a, b[1..])
  }

  /** `items.filter(item => Shown(item, role))`. */
  function FilterShown(items: seq<NavItem>, role: string): seq<NavItem>
  {
    if |items| == 0 then []
    else if Shown(items[0], role) then [items[0]] + FilterShown(items[1..], role)
    else FilterShown(items[1..], role)
  }

  /** The filter keeps exactly the items shown to the role, in their original
      order. */
  lemma {:induction false} FilterShownKeepsOrder(items: seq<NavItem>, role: string)
    ensures IsSubsequence(FilterShown(items, role), items)
    ensures forall it :: it in FilterShown(items, role) <==> it in items && Shown(it, role)
  {
    if |items| > 0 {
      var rest := FilterShown(items[1..], role);
      FilterShownKeepsOrder(items[1..], role);
      assert forall it :: it in items <==> it == items[0] || it in items[1..];
      if Shown(items[0], role) {
        assert ([items[0]] + rest)[1..] == rest;
      } else {
        assert |rest| > 0 ==> rest[0] in rest;
      }
    }
  }

  /** The filtered menu for any role string: administrators see everything,
      every other role (and '') sees Dashboard, Users and Requests. */
  lemma MenuShape(role: string)
    ensures FilterShown(NavItems, role) ==
              if role in AdminRoles then NavItems else [Dashboard, Users, Requests]
  {
    var admin := role in AdminRoles;
    assert Shown(Providers, role) == admin && Shown(Departments, role) == admin;
    assert Shown(Sections, role) == admin && Shown(Disciplines, role) == admin;
    var s6 := [Requests];
    var s5 := [Disciplines] + s6;
    var s4 := [Sections] + s5;
    var s3 := [Departments] + s4;
    var s2 := [Providers] + s3;
    var s1 := [Users] + s2;
    assert NavItems == [Dashboard] + s1;
    assert FilterShown(s6, role) == s6 by { assert s6[1..] == []; }
    assert FilterShown(s5, role) == if admin then s5 else s6 by { assert s5[1..] == s6; }
    assert FilterShown(s4, role) == if admin then s4 else s6 by { assert s4[1..] == s5; }
    assert FilterShown(s3, role) == if admin then s3 else s6 by { assert s3[1..] == s4; }
    assert FilterShown(s2, role) == if admin then s2 else s6 by { assert s2[1..] == s3; }
    assert FilterShown(s1, role) == if admin then s1 else [Users] + s6 by { assert s1[1..] == s2; }
    assert NavItems[1..] == s1;
  }

  /** `user?.role || ''`: the signed-in user's role string, or '' with no user. */
  function MenuRole(userRole: Option<string>): string {
    if userRole.Some? then userRole.value else ""
  }

  /** `useNavData`, given the role string of the signed-in user (if any). */
  function NavData(userRole: Option<string>): (r: seq<NavItem>)
    ensures IsSubsequence(r, NavItems)
    ensures Dashboard in r && Users in r && Requests in r
    ensures Providers in r <==> userRole.Some? && userRole.value in {"SUPERADMIN", "ADMIN"}
  {
    MenuShape(MenuRole(userRole));
    FilterShownKeepsOrder(NavItems, MenuRole(userRole));
    FilterShown(NavItems, MenuRole(userRole))
  }

  /** With no user, exactly Dashboard, Users and Requests are shown; an
      administrator sees the whole menu; a USER sees what an anonymous
      visitor sees. */
  lemma MenuByRole()
    ensures NavData(None) == [Dashboard, Users, Requests]
    ensures NavData(Some("ADMIN")) == NavItems
    ensures NavData(Some("SUPERADMIN")) == NavItems
    ensures NavData(Some("USER")) == NavData(None)
  {
    MenuShape("");
    MenuShape("ADMIN");
    MenuShape("SUPERADMIN");
    MenuShape("USER");
  }

  /** The four directory pages are shown together or not at all. */
  lemma DirectoryPagesTogether(userRole: Option<string>)
    ensures Providers in NavData(userRole) <==> Departments in NavData(userRole)
    ensures Providers in NavData(userRole) <==> Sections in NavData(userRole)
    ensures Providers in NavData(userRole) <==> Disciplines in NavData(userRole)
  {
    MenuShape(MenuRole(userRole));
  }
}

=== FILE: request_properties.dfy ===
/** Properties of the request handlers that relate several inputs or several
    calls: the guard, the transition table, the trail and the listing. */
module RequestProperties {
  import opened Wrappers
  import opened Json
  import opened Http
  import opened Workflow
  import opened Validation
  import opened Requests
  import Auth

  /** A body naming request `key`, with an optional status. */
  predicate Addresses(body: Body, key: string) {
    Get(body, "id") == Str(key) && key != ""
  }

  /** A caller who is neither an administrator nor the creator gets 403
      whatever status the body asks for, and nothing is written. */
  lemma {:induction false} StrangerIsForbidden(store: Store, p: Auth.Principal, body: Body, key: string, now: Instant)
    requires Addresses(body, key) && key in store
    requires !Auth.AdminRole(p.role) && Owner(store[key]) != Str(p.id)
    ensures Patch(store, Some(p), body, now) == Step(Text(403, "Forbidden"), store)
  {
    FirstBrokenAt(PatchRules(store, p, body), 2);
  }

  /** An id that is not a string never reaches the guard: the lookup throws
      and the caller gets 500, whatever their role, and nothing is written. */
  lemma {:induction false} NonStringIdIs500(store: Store, p: Auth.Principal, n: int, now: Instant)
    requires n != 0
    ensures Patch(store, Some(p), map["id" := Num(n)], now) == Step(Text(500, "Internal error"), store)
  {
    var body := map["id" := Num(n)];
    FirstBrokenAt(PatchRules(store, p, body), 1);
  }

  /** Whoever passes the guard, the creator included, may perform every
      legal transition, approval included, and the request then carries the
      new status. */
  lemma {:induction false} LegalTransitionSucceeds(store: Store, p: Auth.Principal, body: Body,
                                                          key: string, to: Status, now: Instant)
    requires Addresses(body, key) && key in store
    requires MayUpdate(p, store[key])
    requires ParseStatus(store[key].status).Some?
    requires IsLegalTransition(ParseStatus(store[key].status).value, to)
    requires Get(body, "status") == Str(StatusName(to))
    ensures Patch(store, Some(p), body, now).response.Ok?
    ensures Patch(store, Some(p), body, now).response.value.status == StatusName(to)
  {
    AdmitsLegal(store[key].status, to);
    var rules := PatchRules(store, p, body);
    assert rules[0].holds && rules[1].holds && rules[2].holds && rules[3].holds && rules[4].holds;
    assert FirstBroken(rules).None?;
  }

  /** Re-sending the stored status is an illegal transition, even for an
      administrator, and nothing is written. */
  lemma {:induction false} SameStatusRejected(store: Store, p: Auth.Principal, body: Body, key: string, now: Instant)
    requires Addresses(body, key) && key in store
    requires MayUpdate(p, store[key])
    requires Get(body, "status") == Str(store[key].status) && store[key].status != ""
    ensures Patch(store, Some(p), body, now) == Step(Text(400, "Invalid status transition"), store)
  {
    UnknownOrSameAdmitsNothing(store[key].status, Get(body, "status"));
    FirstBrokenAt(PatchRules(store, p, body), 3);
  }

  /** A request whose stored status is APPROVED, REJECTED or not a key of
      the table can never change status again: every PATCH with a truthy
      status is refused and writes nothing. */
  lemma {:induction false} FrozenStatusesStayFrozen(store: Store, s: Option<Auth.Principal>, body: Body, key: string, now: Instant)
    requires Addresses(body, key) && key in store
    requires store[key].status in {"APPROVED", "REJECTED"} || ParseStatus(store[key].status).None?
    requires Truthy(Get(body, "status"))
    ensures !Patch(store, s, body, now).response.Ok?
    ensures Patch(store, s, body, now).state == store
  {
    var status := Get(body, "status");
    AdmitsIff(store[key].status, status);
    if ParseStatus(store[key].status).Some? {
      var from := ParseStatus(store[key].status).value;
      assert from == Approved || from == Rejected;
      LegalExactlyListed(from, if status.Str? && ParseStatus(status.s).Some? then ParseStatus(status.s).value else from);
    }
    if s.Some? {
      var rules := PatchRules(store, s.value, body);
      assert !rules[3].holds;
    }
  }

  /** A successful status change grows the trail by exactly one entry,
      keeps the old entries, and the new entry records the new status, the
      caller and the time. */
  lemma StatusChangeAppendsOne(store: Store, p: Auth.Principal, body: Body, now: Instant)
    requires Patch(store, Some(p), body, now).response.Ok?
    requires Truthy(Get(body, "status"))
    ensures var before := store[Get(body, "id").s];
            var after := Patch(store, Some(p), body, now).response.value;
            && |after.approvalTrail| == |before.approvalTrail| + 1
            && after.approvalTrail[..|before.approvalTrail|] == before.approvalTrail
            && after.approvalTrail[|before.approvalTrail|].status == after.status
            && after.approvalTrail[|before.approvalTrail|].userId == p.id
            && after.approvalTrail[|before.approvalTrail|].timestamp == now
  {
  }

  /** An update without a (truthy) status and without an `approvalTrail`
      field keeps the status and the trail exactly as they were. */
  lemma NoStatusNoTrailEntry(store: Store, p: Auth.Principal, body: Body, now: Instant)
    requires Patch(store, Some(p), body, now).response.Ok?
    requires !Truthy(Get(body, "status")) && "approvalTrail" !in body
    ensures var before := store[Get(body, "id").s];
            var after := Patch(store, Some(p), body, now).response.value;
            after.status == before.status && after.approvalTrail == before.approvalTrail
  {
  }

  /** A successful update touches only the request it names. */
  lemma UpdateTouchesOneRequest(store: Store, s: Option<Auth.Principal>, body: Body, now: Instant, other: string)
    requires other in store && Get(body, "id") != Str(other)
    ensures other in Patch(store, s, body, now).state
    ensures Patch(store, s, body, now).state[other] == store[other]
    ensures Patch(store, s, body, now).state.Keys == store.Keys
  {
  }

  /** The guard and the listing disagree for ADMIN: an administrator may
      update a request of someone else's that its own listing does not show. */
  lemma {:induction false} AdminUpdatesWhatItCannotList(store: Store, p: Auth.Principal, key: string, now: Instant)
    requires p.role == Auth.Admin
    requires key in store && key != "" && Owner(store[key]) != Str(p.id)
    ensures key !in List(store, Some(p)).value
    ensures Patch(store, Some(p), map["id" := Str(key)], now).response.Ok?
  {
    var body := map["id" := Str(key)];
    var rules := PatchRules(store, p, body);
    assert Get(UpdateData(body), "approvalTrail") == Undefined;
    assert forall i :: 0 <= i < |rules| ==> rules[i].holds;
  }

  /** A creator finds a request they just created in their own listing,
      whatever their role. */
  lemma CreatorListsOwnRequest(store: Store, p: Auth.Principal, body: Body, newId: string, now: Instant)
    requires newId !in store
    requires Create(store, Some(p), body, newId, now).response.Ok?
    ensures newId in List(Create(store, Some(p), body, newId, now).state, Some(p)).value
  {
  }

  /** A request as creation leaves it: awaiting SUPERADMIN review, owned by
      `u`, with one trail entry. */
  predicate FreshBy(r: Request, u: string) {
    r.status == "PENDING_SUPERADMIN_REVIEW" && Owner(r) == Str(u) && |r.approvalTrail| == 1
  }

  /** A request created by `u1` is fresh and owned by `u1`. */
  lemma CreateScenario(body: Body, now: Instant)
    requires AllTruthy(body, RequiredFields)
    ensures Create(map[], Some(Auth.Principal("u1", Auth.User)), body, "r1", now).response.Ok?
    ensures FreshBy(Create(map[], Some(Auth.Principal("u1", Auth.User)), body, "r1", now).state["r1"], "u1")
  {
  }

  /** A SUPERADMIN moves a fresh request to admin review; the
      trail then holds two entries. */
  lemma {:induction false} PromoteScenario(store: Store, now: Instant)
    requires "r1" in store && FreshBy(store["r1"], "u1")
    ensures var toAdmin := map["id" := Str("r1"), "status" := Str("PENDING_ADMIN_REVIEW")];
            var r := Patch(store, Some(Auth.Principal("s", Auth.SuperAdmin)), toAdmin, now);
            r.response.Ok? && r.response.value.status == "PENDING_ADMIN_REVIEW"
            && |r.response.value.approvalTrail| == 2
  {
    var boss := Auth.Principal("s", Auth.SuperAdmin);
    var toAdmin := map["id" := Str("r1"), "status" := Str("PENDING_ADMIN_REVIEW")];
    StatusNameRoundTrip(PendingSuperadminReview, store["r1"].status);
    assert Addresses(toAdmin, "r1");
    assert Get(toAdmin, "status") == Str(StatusName(PendingAdminReview));
    LegalTransitionSucceeds(store, boss, toAdmin, "r1", PendingAdminReview, now);
    StatusChangeAppendsOne(store, boss, toAdmin, now);
  }

  /** Skipping admin review is refused, even for a SUPERADMIN. */
  lemma {:induction false} SkipScenario(store: Store, now: Instant)
    requires "r1" in store && FreshBy(store["r1"], "u1")
    ensures var skip := map["id" := Str("r1"), "status" := Str("ASSIGNED_TO_ENGINEER")];
            Patch(store, Some(Auth.Principal("s", Auth.SuperAdmin)), skip, now).response
              == Text(400, "Invalid status transition")
  {
    var boss := Auth.Principal("s", Auth.SuperAdmin);
    var skip := map["id" := Str("r1"), "status" := Str("ASSIGNED_TO_ENGINEER")];
    StatusNameRoundTrip(PendingSuperadminReview, store["r1"].status);
    StatusNameRoundTrip(AssignedToEngineer, "ASSIGNED_TO_ENGINEER");
    AdmitsIff(store["r1"].status, Str("ASSIGNED_TO_ENGINEER"));
    assert Addresses(skip, "r1");
    var rules := PatchRules(store, boss, skip);
    assert rules[0].holds && rules[1].holds && rules[2].holds && !rules[3].holds;
    FirstBrokenAt(rules, 3);
  }

  /** A stranger `u2` is forbidden to reject a fresh
      request of `u1`, while `u1` may reject it. */
  lemma {:induction false} RejectScenario(store: Store, now: Instant)
    requires "r1" in store && FreshBy(store["r1"], "u1")
    ensures var reject := map["id" := Str("r1"), "status" := Str("REJECTED")];
            && Patch(store, Some(Auth.Principal("u2", Auth.User)), reject, now).response == Text(403, "Forbidden")
            && Patch(store, Some(Auth.Principal("u1", Auth.User)), reject, now).response.Ok?
  {
    var reject := map["id" := Str("r1"), "status" := Str("REJECTED")];
    StatusNameRoundTrip(PendingSuperadminReview, store["r1"].status);
    assert Addresses(reject, "r1");
    assert Get(reject, "status") == Str(StatusName(Rejected));
    StrangerIsForbidden(store, Auth.Principal("u2", Auth.User), reject, "r1", now);
    LegalTransitionSucceeds(store, Auth.Principal("u1", Auth.User), reject, "r1", Rejected, now);
  }
}

=== FILE: requests.dfy ===
/** The request API (app/api/requests/route.ts): role-scoped listing,
    creation, and the status-changing update with its owner/role guard and
    append-only approval trail. Each handler is a pure function from the
    stored requests, the session's principal, the decoded body and the
    current time to a reply and the new stored requests. */
module Requests {
  import opened Wrappers
  import opened Json
  import opened Http
  import opened Validation
  import opened Workflow
  import Auth

  /** A stored request: its status as persisted, its approval trail, and
      every other column by name (`userId`, `title`, `providerId`, ...). */
  datatype Request = Request(status: string, approvalTrail: seq<TrailEntry>, columns: map<string, Value>)

  /** Stored requests by id. */
  type Store = map<string, Request>

  /** The creator of a request (its `userId` column). */
  function Owner(r: Request): Value {
    Get(r.columns, "userId")
  }

  /** The update guard: SUPERADMIN and ADMIN may update any request, anyone
      else only a request they created. */
  predicate MayUpdate(p: Auth.Principal, r: Request) {
    Auth.AdminRole(p.role) || Owner(r) == Str(p.id)
  }

  /** The reply for a caller without a session. */
  const Unauthenticated: Response<Request> := Text(401, "Unauthorized")

  // ---------------------------------------------------------------- GET

  /** GET: SUPERADMIN sees every request; every other role, ADMIN included,
      sees only the requests it created. */
  function List(store: Store, session: Option<Auth.Principal>): (r: Response<Store>)
    ensures r.Status() == 401 <==> session.None?
    ensures session.Some? ==> r.Ok?
    ensures r.Ok? ==> forall id :: id in r.value ==> id in store && r.value[id] == store[id]
    ensures r.Ok? && session.Some? && session.value.role == Auth.SuperAdmin ==> r.value == store
    ensures r.Ok? && session.Some? && session.value.role != Auth.SuperAdmin ==>
              forall id :: id in store ==> (id in r.value <==> Owner(store[id]) == Str(session.value.id))
  {
    if session.None? then Text(401, "Unauthorized")
    else if session.value.role == Auth.SuperAdmin then Ok(store)
    else Ok(map id | id in store && Owner(store[id]) == Str(session.value.id) :: store[id])
  }

  // --------------------------------------------------------------- POST

  /** The body fields a new request must carry with a truthy value. */
  const RequiredFields: seq<string> :=
    ["title", "requestedService", "serviceDescription", "businessJustification",
     "requiredStartDate", "requiredCompletionDate", "priority", "requestGroup",
     "impactCategory", "providerId", "departmentId"]

  /** The body fields copied into a new request: the required ones and `fileUrl`. */
  const StoredFields: seq<string> := RequiredFields + ["fileUrl"]

  /** The handler's inline test for a missing required field. */
  predicate MissingRequired(body: Body) {
    || !Truthy(Get(body, "title")) || !Truthy(Get(body, "requestedService"))
    || !Truthy(Get(body, "serviceDescription")) || !Truthy(Get(body, "businessJustification"))
    || !Truthy(Get(body, "requiredStartDate")) || !Truthy(Get(body, "requiredCompletionDate"))
    || !Truthy(Get(body, "priority")) || !Truthy(Get(body, "requestGroup"))
    || !Truthy(Get(body, "impactCategory")) || !Truthy(Get(body, "providerId"))
    || !Truthy(Get(body, "departmentId"))
  }

  /** The inline test is the same as "some required field is falsy". */
  lemma MissingRequiredIff(body: Body)
    ensures MissingRequired(body) <==> !AllTruthy(body, RequiredFields)
  {
    assert RequiredFields[0] == "title" && RequiredFields[1] == "requestedService";
    assert RequiredFields[2] == "serviceDescription" && RequiredFields[3] == "businessJustification";
    assert RequiredFields[4] == "requiredStartDate" && RequiredFields[5] == "requiredCompletionDate";
    assert RequiredFields[6] == "priority" && RequiredFields[7] == "requestGroup";
    assert RequiredFields[8] == "impactCategory" && RequiredFields[9] == "providerId";
    assert RequiredFields[10] == "departmentId";
  }

  /** The first trail entry of every request. */
  function SeedEntry(userId: string, now: Instant): TrailEntry {
    TrailEntry(StatusName(PendingSuperadminReview), now, userId, Str("Request created"))
  }

  /** POST: any authenticated caller may create a request carrying all
      required fields. It starts in PENDING_SUPERADMIN_REVIEW, owned by the
      caller, with a one-entry trail. `newId` is the id the database assigns. */
  function Create(store: Store, session: Option<Auth.Principal>, body: Body,
                  newId: string, now: Instant): (r: Step<Request, Store>)
    requires newId !in store
    ensures r.response.Status() == 401 <==> session.None?
    ensures r.response.Status() == 400 <==> session.Some? && !AllTruthy(body, RequiredFields)
    ensures r.response.Ok? <==> session.Some? && AllTruthy(body, RequiredFields)
    ensures r.response.Text? ==> r.state == store
    ensures r.response.Ok? ==> r.state == store[newId := r.response.value]
    ensures r.response.Ok? ==>
              && r.response.value.status == StatusName(PendingSuperadminReview)
              && r.response.value.approvalTrail == [SeedEntry(session.value.id, now)]
              && Owner(r.response.value) == Str(session.value.id)
    ensures r.response.Ok? ==>
              forall i :: 0 <= i < |StoredFields| ==>
                Get(r.response.value.columns, StoredFields[i]) == Get(body, StoredFields[i])
    ensures r.response.Ok? ==>
              forall k :: k in r.response.value.columns ==> k in StoredFields || k == "userId"
  {
    if session.None? then Step(Text(401, "Unauthorized"), store)
    else if MissingRequired(body) then
      MissingRequiredIff(body);
      Step(Text(400, "Missing required fields"), store)
    else
      MissingRequiredIff(body);
      var p := session.value;
      var columns := (map k | k in StoredFields && Get(body, k) != Undefined :: Get(body, k))["userId" := Str(p.id)];
      var request := Request(StatusName(PendingSuperadminReview), [SeedEntry(p.id, now)], columns);
      Step(Ok(request), store[newId := request])
  }

  // -------------------------------------------------------------- PATCH

  /** The body minus `id`, `status` and `comment`: copied onto the request. */
  function UpdateData(body: Body): Body {
    body - {"id", "status", "comment"}
  }

  /** The id names a stored request (only a string can match a row). */
  predicate Found(store: Store, id: Value) {
    id.Str? && id.s in store
  }

  /** The reply when the lookup by id finds nothing: a string id that names
      no row is "not found", while an id of any other type is rejected by the
      database client, whose exception the handler's `catch` answers with 500. */
  function LookupFailure(id: Value): (r: Rule)
    ensures !r.holds
    ensures id.Str? ==> r.code == 404 && r.message == "Request not found"
    ensures !id.Str? ==> r.code == 500 && r.message == "Internal error"
  {
    if id.Str? then Rule(false, 404, "Request not found") else Rule(false, 500, "Internal error")
  }

  /** The acceptance rules of PATCH for an authenticated caller, in the order
      the handler checks them. The last one is the persistence layer refusing
      a trail column that is not a list (only reachable without a status). */
  function PatchRules(store: Store, p: Auth.Principal, body: Body): seq<Rule> {
    var id := Get(body, "id");
    var status := Get(body, "status");
    var trail := Get(UpdateData(body), "approvalTrail");
    [ Rule(Truthy(id), 400, "Request ID is required"),
      Rule(Found(store, id), LookupFailure(id).code, LookupFailure(id).message),
      Rule(!Found(store, id) || MayUpdate(p, store[id.s]), 403, "Forbidden"),
      Rule(!Found(store, id) || !Truthy(status) || Admits(store[id.s].status, status),
           400, "Invalid status transition"),
      Rule(Truthy(status) || trail == Undefined || trail.EntryList?, 500, "Internal error") ]
  }

  /** The default trail comment for a status change. */
  function DefaultComment(status: string): string {
    "Status changed to " + status
  }

  /** The trail entry a status change appends. */
  function ChangeEntry(status: string, now: Instant, userId: string, comment: Value): (e: TrailEntry)
    ensures e.status == status && e.timestamp == now && e.userId == userId
    ensures Truthy(comment) ==> e.comment == comment
    ensures !Truthy(comment) ==> e.comment == Str(DefaultComment(status))
  {
    TrailEntry(status, now, userId, Or(comment, Str(DefaultComment(status))))
  }

  /** The column write: every key of the update data except `approvalTrail`;
      a key whose value is `undefined` leaves its column as it is. */
  function Merge(columns: map<string, Value>, data: Body): (r: map<string, Value>)
    ensures forall k :: k in data && k != "approvalTrail" && data[k] != Undefined ==> Get(r, k) == data[k]
    ensures forall k :: !(k in data && k != "approvalTrail" && data[k] != Undefined) ==> Get(r, k) == Get(columns, k)
  {
    columns + map k | k in data && k != "approvalTrail" && data[k] != Undefined :: data[k]
  }

  /** The handler's checks for an authenticated caller, as it writes them;
      the result is the first one that fails. */
  function CheckPatch(store: Store, p: Auth.Principal, body: Body): (r: Option<Rule>)
    ensures r == FirstBroken(PatchRules(store, p, body))
  {
    var id := Get(body, "id");
    var status := Get(body, "status");
    var rules := PatchRules(store, p, body);
    if !Truthy(id) then
      FirstBrokenAt(rules, 0);
      Some(Rule(false, 400, "Request ID is required"))
    else if !Found(store, id) then
      FirstBrokenAt(rules, 1);
      Some(LookupFailure(id))
    else if !Auth.AdminRole(p.role) && Owner(store[id.s]) != Str(p.id) then
      FirstBrokenAt(rules, 2);
      Some(Rule(false, 403, "Forbidden"))
    else if Truthy(status) && !Admits(store[id.s].status, status) then
      FirstBrokenAt(rules, 3);
      Some(Rule(false, 400, "Invalid status transition"))
    else
      var trail := Get(UpdateData(body), "approvalTrail");
      if !Truthy(status) && trail != Undefined && !trail.EntryList? then
        FirstBrokenAt(rules, 4);
        Some(Rule(false, 500, "Internal error"))
      else
        assert forall i :: 0 <= i < |rules| ==> rules[i].holds;
        None
  }

  /** The write of an accepted update: the update data's columns; with a
      truthy (hence admitted, hence string) status, the new status and one
      appended trail entry that wins over the body's `approvalTrail`;
      without one, the status as it was and the body's `approvalTrail`, if
      it carries a list, in place of the trail. */
  function Applied(current: Request, body: Body, userId: string, now: Instant): (r: Request)
    requires var status := Get(body, "status"); Truthy(status) ==> status.Str?
    ensures r.columns == Merge(current.columns, UpdateData(body))
    ensures Truthy(Get(body, "status")) ==>
              && r.status == Get(body, "status").s
              && r.approvalTrail == current.approvalTrail
                   + [ChangeEntry(Get(body, "status").s, now, userId, Get(body, "comment"))]
    ensures !Truthy(Get(body, "status")) ==>
              && r.status == current.status
              && r.approvalTrail == (if Get(body, "approvalTrail").EntryList?
                                     then Get(body, "approvalTrail").entries
                                     else current.approvalTrail)
  {
    var status := Get(body, "status");
    var data := UpdateData(body);
    var columns := Merge(current.columns, data);
    if Truthy(status) then
      Request(status.s, current.approvalTrail + [ChangeEntry(status.s, now, userId, Get(body, "comment"))], columns)
    else
      var trail := Get(data, "approvalTrail");
      Request(current.status, if trail.EntryList? then trail.entries else current.approvalTrail, columns)
  }

  /** PATCH. In order: no session is 401, no id 400, a string id naming no
      request 404 (an id of another type 500), a caller who is neither an
      administrator nor the creator 403, a truthy status the table does not
      admit from the stored status 400. Otherwise
      the update data is written; a truthy status also replaces the status
      and appends one trail entry, which wins over any `approvalTrail` in the
      update data. Every refusal leaves the store unchanged. */
  function Patch(store: Store, session: Option<Auth.Principal>, body: Body, now: Instant): (r: Step<Request, Store>)
    ensures session.None? ==> r == Step(Unauthenticated, store)
    ensures session.Some? && FirstBroken(PatchRules(store, session.value, body)).Some? ==>
              r == Step(Refuse(FirstBroken(PatchRules(store, session.value, body)).value), store)
    ensures r.response.Ok? <==> session.Some? && FirstBroken(PatchRules(store, session.value, body)).None?
    ensures r.response.Ok? ==> Get(body, "id").Str? && Get(body, "id").s in store
    ensures r.response.Ok? && Get(body, "id").Str? && Get(body, "id").s in store ==>
              var id := Get(body, "id").s;
              var before := store[id];
              var after := r.response.value;
              var status := Get(body, "status");
              && r.state == store[id := after]
              && after.columns == Merge(before.columns, UpdateData(body))
              && (Truthy(status) ==>
                    && status.Str?
                    && after.status == status.s
                    && after.approvalTrail == before.approvalTrail
                         + [ChangeEntry(status.s, now, session.value.id, Get(body, "comment"))])
              && (!Truthy(status) ==>
                    && after.status == before.status
                    && after.approvalTrail == (if Get(body, "approvalTrail").EntryList?
                                              then Get(body, "approvalTrail").entries
                                              else before.approvalTrail))
  {
    if session.None? then Step(Unauthenticated, store)
    else
      match CheckPatch(store, session.value, body)
      case Some(rule) => Step(Refuse(rule), store)
      case None =>
        var rules := PatchRules(store, session.value, body);
        assert rules[0].holds && rules[1].holds && rules[3].holds;
        var id := Get(body, "id").s;
        var updated := Applied(store[id], body, session.value.id, now);
        Step(Ok(updated), store[id := updated])
  }
}

=== FILE: signup.dfy ===
/** Self sign-up (app/api/auth/sign-up/route.ts): validates the body, checks
    that the chosen department, section and discipline form a chain under
    the chosen provider, and creates a user whose role is always USER. */
module SignUp {
  import opened Wrappers
  import opened Json
  import opened Http
  import opened Accounts

  /** The acceptance rules of sign-up, in the order the handler checks them. */
  function SignUpRules(users: Users, dir: Directory, body: Body): seq<Rule> {
    var provider := Get(body, "providerId");
    var department := Get(body, "departmentId");
    var section := Get(body, "sectionId");
    var discipline := Get(body, "disciplineId");
    [ Rule(Truthy(Get(body, "name")) && Truthy(Get(body, "email")) && Truthy(Get(body, "password"))
           && Truthy(Get(body, "confirmPassword")) && Truthy(provider),
           400, "Missing required fields"),
      Rule(Get(body, "password") == Get(body, "confirmPassword"), 400, "Passwords do not match"),
      Rule(!EmailTaken(users, Get(body, "email")), 400, "Email already exists"),
      Rule(!Truthy(department) || RowUnder(dir.departments, department, provider), 400, "Invalid department"),
      Rule(!Truthy(section) || RowUnder(dir.sections, section, department), 400, "Invalid section"),
      Rule(!Truthy(discipline) || RowUnder(dir.disciplines, discipline, section), 400, "Invalid discipline") ]
  }

  /** The handler's checks as it writes them, one after another; the result
      is the first one that fails. */
  function CheckBody(users: Users, dir: Directory, body: Body): (r: Option<Rule>)
    ensures r == FirstBroken(SignUpRules(users, dir, body))
  {
    var name := Get(body, "name");
    var email := Get(body, "email");
    var password := Get(body, "password");
    var confirmPassword := Get(body, "confirmPassword");
    var providerId := Get(body, "providerId");
    var departmentId := Get(body, "departmentId");
    var sectionId := Get(body, "sectionId");
    var disciplineId := Get(body, "disciplineId");
    var rules := SignUpRules(users, dir, body);
    if !Truthy(name) || !Truthy(email) || !Truthy(password) || !Truthy(confirmPassword) || !Truthy(providerId) then
      FirstBrokenAt(rules, 0);
      Some(Rule(false, 400, "Missing required fields"))
    else if password != confirmPassword then
      FirstBrokenAt(rules, 1);
      Some(Rule(false, 400, "Passwords do not match"))
    else if EmailTaken(users, email) then
      FirstBrokenAt(rules, 2);
      Some(Rule(false, 400, "Email already exists"))
    else if Truthy(departmentId) && !RowUnder(dir.departments, departmentId, providerId) then
      FirstBrokenAt(rules, 3);
      Some(Rule(false, 400, "Invalid department"))
    else if Truthy(sectionId) && !RowUnder(dir.sections, sectionId, departmentId) then
      FirstBrokenAt(rules, 4);
      Some(Rule(false, 400, "Invalid section"))
    else if Truthy(disciplineId) && !RowUnder(dir.disciplines, disciplineId, sectionId) then
      FirstBrokenAt(rules, 5);
      Some(Rule(false, 400, "Invalid discipline"))
    else
      assert forall i :: 0 <= i < |rules| ==> rules[i].holds;
      None
  }

  /** POST /api/auth/sign-up: the first failed check is answered with 400
      and nothing is stored; otherwise a USER account is created from the
      body. `newId` is the id the database assigns, `now` the creation time. */
  function Register(users: Users, dir: Directory, body: Body, newId: string, now: Instant): (r: Step<PublicUser, Users>)
    requires newId !in users
    ensures FirstBroken(SignUpRules(users, dir, body)).Some? ==>
              r == Step(Refuse(FirstBroken(SignUpRules(users, dir, body)).value), users)
    ensures r.response.Ok? <==> FirstBroken(SignUpRules(users, dir, body)).None?
    ensures r.response.Ok? ==>
              && newId in r.state
              && r.state == users[newId := r.state[newId]]
              && r.response.value == Public(newId, r.state[newId])
    ensures r.response.Ok? ==>
              var a := r.state[newId];
              && a.role == Str("USER")
              && a.name == Get(body, "name") && a.email == Get(body, "email")
              && a.password == Hashed(Get(body, "password"))
              && a.providerId == Get(body, "providerId") && a.departmentId == Get(body, "departmentId")
              && a.sectionId == Get(body, "sectionId") && a.disciplineId == Get(body, "disciplineId")
              && a.createdAt == now
  {
    match CheckBody(users, dir, body)
    case Some(rule) => Step(Refuse(rule), users)
    case None =>
      var account := Account(Get(body, "name"), Get(body, "email"), Hashed(Get(body, "password")), Str("USER"),
                             Get(body, "providerId"), Get(body, "departmentId"),
                             Get(body, "sectionId"), Get(body, "disciplineId"), now);
      Step(Ok(Public(newId, account)), users[newId := account])
  }

  /** Sign-up keeps e-mail addresses unique. */
  lemma RegisterKeepsUniqueEmails(users: Users, dir: Directory, body: Body, newId: string, now: Instant)
    requires newId !in users && UniqueEmails(users)
    ensures UniqueEmails(Register(users, dir, body, newId, now).state)
  {
    var r := Register(users, dir, body, newId, now);
    if r.response.Ok? {
      var rules := SignUpRules(users, dir, body);
      assert rules[2].holds;
      AddKeepsUniqueEmails(users, newId, r.state[newId]);
    }
  }

  /** A `role` field in the body changes nothing: sign-up cannot grant itself
      a role. */
  lemma BodyRoleIsIgnored(users: Users, dir: Directory, body: Body, role: Value, newId: string, now: Instant)
    requires newId !in users
    ensures Register(users, dir, body["role" := role], newId, now) == Register(users, dir, body, newId, now)
  {
    var b := body["role" := role];
    assert forall k :: k != "role" ==> Get(b, k) == Get(body, k);
    assert SignUpRules(users, dir, b) == SignUpRules(users, dir, body);
  }

  /** An accepted chain really is a chain: each supplied level's row exists
      and (when its parent is supplied) sits under that parent. */
  lemma AcceptedChainIsConsistent(users: Users, dir: Directory, body: Body, newId: string, now: Instant)
    requires newId !in users
    requires Register(users, dir, body, newId, now).response.Ok?
    requires Truthy(Get(body, "departmentId")) && Truthy(Get(body, "sectionId"))
    ensures var d := Get(body, "departmentId").s;
            var sec := Get(body, "sectionId").s;
            && Get(body, "departmentId").Str? && d in dir.departments
            && Str(dir.departments[d]) == Get(body, "providerId")
            && Get(body, "sectionId").Str? && sec in dir.sections
            && dir.sections[sec] == d
  {
    var rules := SignUpRules(users, dir, body);
    assert rules[3].holds && rules[4].holds;
  }

  /** Where the query builder shows through: a section supplied with no
      `departmentId` field at all is accepted if it exists anywhere, while
      the same section with an empty `departmentId` is refused. */
  lemma AbsentParentFilterIsDropped(now: Instant)
    ensures var dir := Directory(map[], map["s1" := "d9"], map[]);
            var body := map["name" := Str("n"), "email" := Str("e"), "password" := Str("p"),
                            "confirmPassword" := Str("p"), "providerId" := Str("p1"),
                            "sectionId" := Str("s1")];
            && Register(map[], dir, body, "u1", now).response.Ok?
            && Register(map[], dir, body["departmentId" := Str("")], "u1", now)
                 == Step(Text(400, "Invalid section"), map[])
  {
    var dir := Directory(map[], map["s1" := "d9"], map[]);
    var body := map["name" := Str("n"), "email" := Str("e"), "password" := Str("p"),
                    "confirmPassword" := Str("p"), "providerId" := Str("p1"), "sectionId" := Str("s1")];
    var rules := SignUpRules(map[], dir, body);
    assert forall i :: 0 <= i < |rules| ==> rules[i].holds;
    var body2 := body["departmentId" := Str("")];
    FirstBrokenAt(SignUpRules(map[], dir, body2), 4);
  }
}

=== FILE: trail_integrity.dfy ===
/** The approval trail as a history of the workflow: a well-formed request's
    trail starts at PENDING_SUPERADMIN_REVIEW, moves along legal transitions
    only, and ends at the request's current status. PATCH as written lets an
    update without a status overwrite the trail; `PatchAppendOnly` is the
    update with that hole closed, and it preserves the history. */
module TrailIntegrity {
  import opened Wrappers
  import opened Json
  import opened Http
  import opened Workflow
  import opened Requests
  import Auth

  /** Every entry names a status, and each names a legal successor of the
      status before it. */
  predicate LegalHistory(t: seq<TrailEntry>) {
    && (forall i :: 0 <= i < |t| ==> ParseStatus(t[i].status).Some?)
    && (forall i :: 0 < i < |t| ==> LegalStep(t[i - 1], t[i]))
  }

  predicate LegalStep(a: TrailEntry, b: TrailEntry) {
    ParseStatus(a.status).Some? && ParseStatus(b.status).Some?
    && IsLegalTransition(ParseStatus(a.status).value, ParseStatus(b.status).value)
  }

  /** The trail is the request's history from creation to its status. */
  predicate WellFormed(r: Request) {
    && |r.approvalTrail| > 0
    && r.approvalTrail[0].status == StatusName(PendingSuperadminReview)
    && LegalHistory(r.approvalTrail)
    && r.approvalTrail[|r.approvalTrail| - 1].status == r.status
  }

  predicate StoreWellFormed(store: Store) {
    forall id :: id in store ==> WellFormed(store[id])
  }

  /** PATCH with the trail column protected: the body's `approvalTrail`
      field is ignored, so only a status change can touch the trail. */
  function PatchAppendOnly(store: Store, session: Option<Auth.Principal>, body: Body, now: Instant): (r: Step<Request, Store>)
    ensures r.response.Ok? ==> Get(body, "id").Str? && Get(body, "id").s in store
    ensures r.response.Ok? && Get(body, "id").Str? && Get(body, "id").s in store ==>
              var before := store[Get(body, "id").s];
              before.approvalTrail <= r.response.value.approvalTrail
              && |r.response.value.approvalTrail| <= |before.approvalTrail| + 1
  {
    var r := Patch(store, session, body - {"approvalTrail"}, now);
    assert Get(body - {"approvalTrail"}, "id") == Get(body, "id");
    r
  }

  /** A created request is well formed. */
  lemma CreateIsWellFormed(store: Store, s: Option<Auth.Principal>, body: Body, newId: string, now: Instant)
    requires newId !in store
    requires StoreWellFormed(store)
    ensures StoreWellFormed(Create(store, s, body, newId, now).state)
  {
  }

  /** Appending an entry for a status the table admits from the current one
      keeps a request well formed. */
  lemma {:induction false} AdmittedAppendKeepsHistory(before: Request, after: Request, status: Value, e: TrailEntry)
    requires WellFormed(before)
    requires Admits(before.status, status)
    requires e.status == status.s && after.status == status.s
    requires after.approvalTrail == before.approvalTrail + [e]
    ensures WellFormed(after)
  {
    AdmitsIff(before.status, status);
    var t := after.approvalTrail;
    var n := |before.approvalTrail|;
    assert LegalStep(t[n - 1], t[n]);
    assert forall i :: 0 <= i < n ==> t[i] == before.approvalTrail[i];
    assert LegalHistory(t);
  }

  /** The corrected update keeps every stored request well formed. */
  lemma {:induction false} PatchAppendOnlyPreservesHistory(store: Store, s: Option<Auth.Principal>, body: Body, now: Instant)
    requires StoreWellFormed(store)
    ensures StoreWellFormed(PatchAppendOnly(store, s, body, now).state)
  {
    var b := body - {"approvalTrail"};
    var r := Patch(store, s, b, now);
    if r.response.Ok? {
      var key := Get(b, "id").s;
      var before := store[key];
      var after := r.response.value;
      var status := Get(b, "status");
      assert WellFormed(before);
      if Truthy(status) {
        var rules := PatchRules(store, s.value, b);
        assert rules[3].holds;
        AdmittedAppendKeepsHistory(before, after, status, after.approvalTrail[|before.approvalTrail|]);
      } else {
        assert after.approvalTrail == before.approvalTrail;
      }
      assert r.state == store[key := after];
    }
  }

  /** A well-formed trail climbs one pipeline stage per entry or more, so it
      holds at most seven entries: a request changes status at most six times. */
  lemma {:induction false} TrailIsShort(r: Request)
    requires WellFormed(r)
    ensures |r.approvalTrail| <= 7
  {
    StagesClimb(r.approvalTrail, |r.approvalTrail| - 1);
  }

  lemma {:induction false} StagesClimb(t: seq<TrailEntry>, i: nat)
    requires |t| > 0 && t[0].status == StatusName(PendingSuperadminReview)
    requires LegalHistory(t)
    requires i < |t|
    ensures Stage(ParseStatus(t[i].status).value) >= i
  {
    if i > 0 {
      StagesClimb(t, i - 1);
      assert LegalStep(t[i - 1], t[i]);
      TransitionsMoveForward(ParseStatus(t[i - 1].status).value, ParseStatus(t[i].status).value);
    }
  }

  /** An approved request has been through every review stage, in order,
      each exactly once. */
  lemma {:induction false} ApprovalVisitsEveryStage(r: Request)
    requires WellFormed(r) && r.status == StatusName(Approved)
    ensures |r.approvalTrail| == 7
    ensures forall i :: 0 <= i < 7 ==> r.approvalTrail[i].status == StatusName(ApprovalPath[i])
  {
    var t := r.approvalTrail;
    FollowsApprovalPath(t, |t| - 1);
    TrailIsShort(r);
    var last := |t| - 1;
    StatusNameRoundTrip(ApprovalPath[last], t[last].status);
    assert ApprovalPath[last] == Approved;
    forall i | 0 <= i < 7 ensures t[i].status == StatusName(ApprovalPath[i]) {
      FollowsApprovalPath(t, i);
    }
  }

  /** Before its last entry, an approved trail can only follow the approval
      path: a REJECTED entry would have nothing after it. */
  lemma {:induction false} FollowsApprovalPath(t: seq<TrailEntry>, i: nat)
    requires |t| > 0 && t[0].status == StatusName(PendingSuperadminReview)
    requires LegalHistory(t)
    requires t[|t| - 1].status == StatusName(Approved)
    requires i < |t|
    ensures i < 7 && t[i].status == StatusName(ApprovalPath[i])
  {
    if i > 0 {
      FollowsApprovalPath(t, i - 1);
      assert LegalStep(t[i - 1], t[i]);
      var from := ParseStatus(t[i - 1].status).value;
      var to := ParseStatus(t[i].status).value;
      StatusNameRoundTrip(from, t[i - 1].status);
      assert from == ApprovalPath[i - 1];
      if i - 1 == 6 {
        LegalExactlyListed(from, to);
        assert false;
      }
      PathSuccessor(i - 1, to);
      if to == Rejected {
        if i < |t| - 1 {
          assert LegalStep(t[i], t[i + 1]);
          LegalExactlyListed(Rejected, ParseStatus(t[i + 1].status).value);
          assert false;
        } else {
          assert false;
        }
      }
    }
  }

  /** The hole in PATCH as written: an owner's update without a status but
      with an empty `approvalTrail` erases the history of a well-formed
      request, and the reply is a success. */
  lemma PatchAsWrittenErasesTrail(now: Instant)
    ensures var owner := Auth.Principal("u1", Auth.User);
            var request := Request(StatusName(PendingSuperadminReview),
                                   [SeedEntry("u1", 0)],
                                   map["userId" := Str("u1")]);
            var store := map["r1" := request];
            var body := map["id" := Str("r1"), "approvalTrail" := EntryList([])];
            && StoreWellFormed(store)
            && Patch(store, Some(owner), body, now).response.Ok?
            && Patch(store, Some(owner), body, now).response.value.approvalTrail == []
            && !StoreWellFormed(Patch(store, Some(owner), body, now).state)
  {
    var owner := Auth.Principal("u1", Auth.User);
    var request := Request(StatusName(PendingSuperadminReview), [SeedEntry("u1", 0)], map["userId" := Str("u1")]);
    var store := map["r1" := request];
    var body := map["id" := Str("r1"), "approvalTrail" := EntryList([])];
    var rules := PatchRules(store, owner, body);
    assert Get(UpdateData(body), "approvalTrail") == EntryList([]);
    assert forall i :: 0 <= i < |rules| ==> rules[i].holds;
    var r := Patch(store, Some(owner), body, now);
    assert "r1" in r.state && !WellFormed(r.state["r1"]);
  }
}

=== FILE: users.dfy ===
/** The users API (app/api/users/route.ts): listing users newest first, and
    account creation by a SUPERADMIN. */
module UsersApi {
  import opened Wrappers
  import opened Json
  import opened Http
  import opened Errors
  import opened Auth
  import opened Accounts
  import SignUp

  // ---------------------------------------------------------------- POST

  /** The acceptance rules of user creation, in the order the handler checks
      them. The role guard throws inside the handler's `try`, whose `catch`
      answers every exception with 500 "Internal error". */
  function CreateUserRules(users: Users, current: Option<Principal>, body: Body): seq<Rule> {
    [ Rule(RequireSuperAdmin(current).Success?, 500, "Internal error"),
      Rule(Truthy(Get(body, "email")) && Truthy(Get(body, "name")) && Truthy(Get(body, "password")),
           400, "Missing required fields"),
      Rule(!EmailTaken(users, Get(body, "email")), 400, "Email already exists") ]
  }

  /** The handler's checks as it writes them; the first one that fails. */
  function CheckCreate(users: Users, current: Option<Principal>, body: Body): (r: Option<Rule>)
    ensures r == FirstBroken(CreateUserRules(users, current, body))
  {
    var rules := CreateUserRules(users, current, body);
    if RequireSuperAdmin(current).Failure? then
      FirstBrokenAt(rules, 0);
      Some(Rule(false, 500, "Internal error"))
    else if !Truthy(Get(body, "email")) || !Truthy(Get(body, "name")) || !Truthy(Get(body, "password")) then
      FirstBrokenAt(rules, 1);
      Some(Rule(false, 400, "Missing required fields"))
    else if EmailTaken(users, Get(body, "email")) then
      FirstBrokenAt(rules, 2);
      Some(Rule(false, 400, "Email already exists"))
    else
      assert forall i :: 0 <= i < |rules| ==> rules[i].holds;
      None
  }

  /** POST /api/users: a SUPERADMIN creates an account with the role given
      in the body (USER when that is falsy). The directory chain is not
      checked. `current` is the cookie's user (`getCurrentUser`). */
  function CreateUser(users: Users, current: Option<Principal>, body: Body, newId: string, now: Instant): (r: Step<PublicUser, Users>)
    requires newId !in users
    ensures FirstBroken(CreateUserRules(users, current, body)).Some? ==>
              r == Step(Refuse(FirstBroken(CreateUserRules(users, current, body)).value), users)
    ensures r.response.Ok? <==> FirstBroken(CreateUserRules(users, current, body)).None?
    ensures r.response.Ok? ==>
              && newId in r.state
              && r.state == users[newId := r.state[newId]]
              && r.response.value == Public(newId, r.state[newId])
    ensures r.response.Ok? ==>
              var a := r.state[newId];
              && (Truthy(Get(body, "role")) ==> a.role == Get(body, "role"))
              && (!Truthy(Get(body, "role")) ==> a.role == Str("USER"))
              && a.name == Get(body, "name") && a.email == Get(body, "email")
              && a.password == Hashed(Get(body, "password"))
              && a.providerId == Get(body, "providerId") && a.departmentId == Get(body, "departmentId")
              && a.sectionId == Get(body, "sectionId") && a.disciplineId == Get(body, "disciplineId")
              && a.createdAt == now
  {
    match CheckCreate(users, current, body)
    case Some(rule) => Step(Refuse(rule), users)
    case None =>
      var account := Account(Get(body, "name"), Get(body, "email"), Hashed(Get(body, "password")),
                             Or(Get(body, "role"), Str("USER")),
                             Get(body, "providerId"), Get(body, "departmentId"),
                             Get(body, "sectionId"), Get(body, "disciplineId"), now);
      Step(Ok(Public(newId, account)), users[newId := account])
  }

  /** A caller who is not a SUPERADMIN (or has no session) gets 500, not 401
      or 403, and nothing is created. */
  lemma {:induction false} NonSuperAdminGets500(users: Users, current: Option<Principal>, body: Body, newId: string, now: Instant)
    requires newId !in users
    requires current.None? || current.value.role != SuperAdmin
    ensures CreateUser(users, current, body, newId, now) == Step(Text(500, "Internal error"), users)
  {
    FirstBrokenAt(CreateUserRules(users, current, body), 0);
  }

  /** User creation keeps e-mail addresses unique. */
  lemma CreateUserKeepsUniqueEmails(users: Users, current: Option<Principal>, body: Body, newId: string, now: Instant)
    requires newId !in users && UniqueEmails(users)
    ensures UniqueEmails(CreateUser(users, current, body, newId, now).state)
  {
    var r := CreateUser(users, current, body, newId, now);
    if r.response.Ok? {
      var rules := CreateUserRules(users, current, body);
      assert rules[2].holds;
      AddKeepsUniqueEmails(users, newId, r.state[newId]);
    }
  }

  /** A directory whose only department, `d1`, belongs to provider `p2`. */
  const ForeignDirectory: Directory := Directory(map["d1" := "p2"], map[], map[])

  /** A body choosing provider `p1` with department `d1`, asking for ADMIN. */
  function ForeignDepartmentBody(): Body {
    map["name" := Str("n"), "email" := Str("e"), "password" := Str("p"),
        "confirmPassword" := Str("p"), "providerId" := Str("p1"),
        "departmentId" := Str("d1"), "role" := Str("ADMIN")]
  }

  /** Sign-up refuses a department that exists but belongs to another provider. */
  lemma {:induction false} SignUpRefusesForeignDepartment(now: Instant)
    ensures SignUp.Register(map[], ForeignDirectory, ForeignDepartmentBody(), "u1", now)
              == Step(Text(400, "Invalid department"), map[])
  {
    var body := ForeignDepartmentBody();
    assert Get(body, "departmentId") == Str("d1");
    assert Get(body, "password") == Get(body, "confirmPassword") == Str("p");
    var rules := SignUp.SignUpRules(map[], ForeignDirectory, body);
    assert rules[0].holds && rules[1].holds && rules[2].holds;
    FirstBrokenAt(rules, 3);
  }

  /** Unlike sign-up, creation by a SUPERADMIN does not check the directory:
      the body that sign-up refuses for its department of another provider
      is accepted here, and the body's role is honoured. */
  lemma {:induction false} NoDirectoryCheckUnlikeSignUp(now: Instant)
    ensures CreateUser(map[], Some(Principal("s1", SuperAdmin)), ForeignDepartmentBody(), "u1", now).response.Ok?
    ensures CreateUser(map[], Some(Principal("s1", SuperAdmin)), ForeignDepartmentBody(), "u1", now).response.value.role
              == Str("ADMIN")
  {
    var body := ForeignDepartmentBody();
    assert Get(body, "email") == Str("e") && Get(body, "name") == Str("n") && Get(body, "password") == Str("p");
    assert Get(body, "role") == Str("ADMIN");
    var rules := CreateUserRules(map[], Some(Principal("s1", SuperAdmin)), body);
    assert rules[0].holds && rules[1].holds && rules[2].holds;
    assert FirstBroken(rules).None?;
  }

  // ----------------------------------------------------------------- GET

  /** The columns the listing selects (the related rows' names are display
      only and not modelled). */
  datatype UserRow = UserRow(id: string, name: Value, email: Value, role: Value, createdAt: Instant)

  function RowOf(id: string, a: Account): UserRow {
    UserRow(id, a.name, a.email, a.role, a.createdAt)
  }

  /** `orderBy: { createdAt: 'desc' }`. */
  predicate NewestFirst(rows: seq<UserRow>) {
    forall i, j :: 0 <= i < j < |rows| ==> rows[i].createdAt >= rows[j].createdAt
  }

  predicate DistinctIds(rows: seq<UserRow>) {
    forall i, j :: 0 <= i < j < |rows| ==> rows[i].id != rows[j].id
  }

  /** Insert a row before the first row that is not newer than it. */
  function InsertNewestFirst(rows: seq<UserRow>, x: UserRow): (r: seq<UserRow>)
    requires NewestFirst(rows)
    ensures NewestFirst(r)
    ensures |r| == |rows| + 1
    ensures forall y :: y in r <==> y in rows || y == x
  {
    if |rows| == 0 then [x]
    else if x.createdAt >= rows[0].createdAt then
      var r := [x] + rows;
      assert forall i :: 1 <= i < |r| ==> r[i] == rows[i - 1];
      r
    else
      var rest := InsertNewestFirst(rows[1..], x);
      assert forall y :: y in rows <==> y == rows[0] || y in rows[1..];
      assert forall y :: y in rows[1..] ==> rows[0].createdAt >= y.createdAt;
      assert forall i :: 0 <= i < |rest| ==> rest[i] in rest && rows[0].createdAt >= rest[i].createdAt;
      var r := [rows[0]] + rest;
      assert forall i :: 1 <= i < |r| ==> r[i] == rest[i - 1];
      r
  }

  /** Inserting a row whose id is new keeps the ids distinct. */
  lemma {:induction false} InsertKeepsIdsDistinct(rows: seq<UserRow>, x: UserRow)
    requires NewestFirst(rows) && DistinctIds(rows)
    requires forall i :: 0 <= i < |rows| ==> rows[i].id != x.id
    ensures DistinctIds(InsertNewestFirst(rows, x))
  {
    var r := InsertNewestFirst(rows, x);
    if |rows| > 0 && x.createdAt < rows[0].createdAt {
      InsertKeepsIdsDistinct(rows[1..], x);
      var rest := InsertNewestFirst(rows[1..], x);
      assert r == [rows[0]] + rest;
      forall i | 0 <= i < |rest| ensures rest[i].id != rows[0].id {
        assert rest[i] in rest;
        if rest[i] != x {
          var k :| 0 <= k < |rows[1..]| && rows[1..][k] == rest[i];
          assert rows[k + 1] == rest[i];
        }
      }
    } else if |rows| > 0 {
      assert r == [x] + rows;
    }
  }

  /** GET /api/users: any signed-in user gets every user, newest first; the
      guard's plain `Error` reaches `handleError` and becomes 500. */
  method ListUsers(users: Users, current: Option<Principal>) returns (r: Response<seq<UserRow>>)
    ensures current.None? ==> r == Text(500, "Unauthorized")
    ensures current.Some? ==> r.Ok?
    ensures r.Ok? ==> NewestFirst(r.value) && DistinctIds(r.value) && |r.value| == |users|
    ensures r.Ok? ==> forall i :: 0 <= i < |r.value| ==>
                        r.value[i].id in users && r.value[i] == RowOf(r.value[i].id, users[r.value[i].id])
    ensures r.Ok? ==> forall id :: id in users ==> RowOf(id, users[id]) in r.value
  {
    match RequireAuth(current)
    case Failure(e) =>
      r := HandleError(e);
    case Success(_) =>
      var rows: seq<UserRow> := [];
      var remaining := users.Keys;
      while remaining != {}
        invariant remaining <= users.Keys
        invariant NewestFirst(rows) && DistinctIds(rows)
        invariant |rows| + |remaining| == |users|
        invariant forall i :: 0 <= i < |rows| ==>
                    rows[i].id in users && rows[i].id !in remaining && rows[i] == RowOf(rows[i].id, users[rows[i].id])
        invariant forall id :: id in users && id !in remaining ==> RowOf(id, users[id]) in rows
        decreases remaining
      {
        var id :| id in remaining;
        var row := RowOf(id, users[id]);
        var next := InsertNewestFirst(rows, row);
        InsertKeepsIdsDistinct(rows, row);
        assert forall i :: 0 <= i < |next| ==> next[i] in next;
        rows := next;
        remaining := remaining - {id};
      }
      assert |users.Keys| == |users|;
      r := Ok(rows);
  }
}

=== FILE: validation.dfy ===
/** Request-body validators (src/lib/utils/validation.ts). Each throws an
    `AppError` (status 400) on failure. */
module Validation {
  import opened Wrappers
  import opened Json
  import opened Errors

  /** Every listed field is present with a truthy value. */
  predicate AllTruthy(body: Body, fields: seq<string>) {
    forall i :: 0 <= i < |fields| ==> Truthy(Get(body, fields[i]))
  }

  /** The message reported for a missing field or id. */
  function RequiredMessage(field: string): string {
    field + " is required"
  }

  /** `validateRequired`: passes iff every listed field is truthy; otherwise
      fails with the FIRST falsy field in list order. */
  function ValidateRequired(body: Body, fields: seq<string>): (r: Outcome<Thrown>)
    ensures r.Pass? <==> AllTruthy(body, fields)
    ensures r.Fail? ==>
      exists i :: 0 <= i < |fields| && !Truthy(Get(body, fields[i]))
                  && (forall j :: 0 <= j < i ==> Truthy(Get(body, fields[j])))
                  && r.error == AppError(RequiredMessage(fields[i]), 400)
  {
    if |fields| == 0 then Pass
    else if !Truthy(Get(body, fields[0])) then Fail(NewAppError(RequiredMessage(fields[0]), None))
    else
      var rest := ValidateRequired(body, fields[1..]);
      assert AllTruthy(body, fields) <==> AllTruthy(body, fields[1..]) by {
        if AllTruthy(body, fields[1..]) {
          forall i | 0 <= i < |fields| ensures Truthy(Get(body, fields[i])) {
            if i > 0 { assert fields[i] == fields[1..][i - 1]; }
          }
        }
      }
      if rest.Fail? then
        var k :| 0 <= k < |fields| - 1 && !Truthy(Get(body, fields[1..][k]))
                 && (forall j :: 0 <= j < k ==> Truthy(Get(body, fields[1..][j])))
                 && rest.error == AppError(RequiredMessage(fields[1..][k]), 400);
        assert fields[k + 1] == fields[1..][k];
        assert forall j :: 0 <= j < k + 1 ==> Truthy(Get(body, fields[j])) by {
          forall j | 0 <= j < k + 1 ensures Truthy(Get(body, fields[j])) {
            if j > 0 { assert fields[j] == fields[1..][j - 1]; }
          }
        }
        rest
      else
        rest
  }

  /** `enumValues.join(sep)`. */
  function Join(parts: seq<string>, sep: string): string
  {
    if |parts| == 0 then ""
    else if |parts| == 1 then parts[0]
    else parts[0] + sep + Join(parts[1..], sep)
  }

  /** `validateEnum`: fails iff the value is not one of the allowed values,
      with a message that names the field and lists the allowed values. */
  function ValidateEnum(value: string, enumValues: seq<string>, fieldName: string): (r: Outcome<Thrown>)
    ensures r.Fail? <==> value !in enumValues
    ensures r.Fail? ==> r.error == AppError(fieldName + " must be one of: " + Join(enumValues, ", "), 400)
  {
    if value !in enumValues then Fail(NewAppError(fieldName + " must be one of: " + Join(enumValues, ", "), None))
    else Pass
  }

  /** `validateId`: a non-empty id is returned unchanged; `null` or the empty
      string fails with "<fieldName> is required". */
  function ValidateId(id: Option<string>, fieldName: string): (r: Result<string, Thrown>)
    ensures r.Success? <==> id.Some? && id.value != ""
    ensures r.Success? ==> r.value == id.value
    ensures r.Failure? ==> r.error == AppError(RequiredMessage(fieldName), 400)
  {
    if id.None? || id.value == "" then Failure(NewAppError(RequiredMessage(fieldName), None))
    else Success(id.value)
  }

  /** A falsy value counts as missing, whatever its type. */
  lemma {:induction false} FalsyCountsAsMissing(body: Body, field: string, fields: seq<string>)
    requires field in fields
    requires !Truthy(Get(body, field))
    ensures ValidateRequired(body, fields).Fail?
  {
  }

  /** The failure of `validateRequired` surfaces as a 400 reply naming the field. */
  lemma RequiredFailureIs400(body: Body, fields: seq<string>)
    requires ValidateRequired(body, fields).Fail?
    ensures HandleError<()>(ValidateRequired(body, fields).error).Status() == 400
  {
  }
}

=== FILE: workflow.dfy ===
/** The request status state machine: the transition table `validTransitions`
    of app/api/requests/route.ts and what follows from it. */
module Workflow {
  import opened Wrappers
  import opened Json

  datatype Status =
    | PendingSuperadminReview
    | PendingAdminReview
    | AssignedToEngineer
    | InProgress
    | CompletedByEngineer
    | PendingMatrixApproval
    | Approved
    | Rejected

  /** The persisted name of a status. */
  function StatusName(s: Status): string {
    match s
    case PendingSuperadminReview => "PENDING_SUPERADMIN_REVIEW"
    case PendingAdminReview => "PENDING_ADMIN_REVIEW"
    case AssignedToEngineer => "ASSIGNED_TO_ENGINEER"
    case InProgress => "IN_PROGRESS"
    case CompletedByEngineer => "COMPLETED_BY_ENGINEER"
    case PendingMatrixApproval => "PENDING_MATRIX_APPROVAL"
    case Approved => "APPROVED"
    case Rejected => "REJECTED"
  }

  /** The status a persisted name denotes, if any. */
  function ParseStatus(name: string): (r: Option<Status>)
    ensures r.Some? ==> StatusName(r.value) == name
  {
    if name == "PENDING_SUPERADMIN_REVIEW" then Some(PendingSuperadminReview)
    else if name == "PENDING_ADMIN_REVIEW" then Some(PendingAdminReview)
    else if name == "ASSIGNED_TO_ENGINEER" then Some(AssignedToEngineer)
    else if name == "IN_PROGRESS" then Some(InProgress)
    else if name == "COMPLETED_BY_ENGINEER" then Some(CompletedByEngineer)
    else if name == "PENDING_MATRIX_APPROVAL" then Some(PendingMatrixApproval)
    else if name == "APPROVED" then Some(Approved)
    else if name == "REJECTED" then Some(Rejected)
    else None
  }

  /** Names and statuses are in one-to-one correspondence. */
  lemma StatusNameRoundTrip(s: Status, name: string)
    ensures ParseStatus(StatusName(s)) == Some(s)
    ensures ParseStatus(name) == Some(s) <==> StatusName(s) == name
  {
  }

  /** Each row of the transition table, in the table's order. */
  function Successors(s: Status): seq<Status> {
    match s
    case PendingSuperadminReview => [PendingAdminReview, Rejected]
    case PendingAdminReview => [AssignedToEngineer, Rejected]
    case AssignedToEngineer => [InProgress]
    case InProgress => [CompletedByEngineer]
    case CompletedByEngineer => [PendingMatrixApproval]
    case PendingMatrixApproval => [Approved, Rejected]
    case Approved => []
    case Rejected => []
  }

  predicate IsLegalTransition(from: Status, to: Status) {
    to in Successors(from)
  }

  /** The names in a table row. */
  function Names(row: seq<Status>): (r: seq<string>)
    ensures |r| == |row|
    ensures forall i :: 0 <= i < |row| ==> r[i] == StatusName(row[i])
  {
    if |row| == 0 then [] else [StatusName(row[0])] + Names(row[1..])
  }

  /** `validTransitions[stored]`: the row for a persisted status string, or
      nothing when the string is not a key of the table. */
  function TableRow(stored: string): Option<seq<string>> {
    match ParseStatus(stored)
    case None => None
    case Some(s) => Some(Names(Successors(s)))
  }

  /** `validTransitions[stored]?.includes(target)`: `includes` compares with
      strict equality, so only a string naming a listed status matches. */
  predicate Admits(stored: string, target: Value) {
    TableRow(stored).Some? && target.Str? && target.s in TableRow(stored).value
  }

  /** The table admits a target exactly when the stored string names a
      status and the target names a legal successor of it. */
  lemma AdmitsIff(stored: string, target: Value)
    ensures Admits(stored, target) <==>
              ParseStatus(stored).Some? && target.Str? && ParseStatus(target.s).Some?
              && IsLegalTransition(ParseStatus(stored).value, ParseStatus(target.s).value)
  {
    if ParseStatus(stored).Some? && target.Str? {
      var from := ParseStatus(stored).value;
      var row := Successors(from);
      var names := Names(row);
      if target.s in names {
        var i :| 0 <= i < |names| && names[i] == target.s;
        StatusNameRoundTrip(row[i], target.s);
      }
      if ParseStatus(target.s).Some? && IsLegalTransition(from, ParseStatus(target.s).value) {
        var to := ParseStatus(target.s).value;
        var i :| 0 <= i < |row| && row[i] == to;
        assert names[i] == target.s;
      }
    }
  }

  /** The table admits every legal transition, named by its target's name. */
  lemma AdmitsLegal(stored: string, to: Status)
    requires ParseStatus(stored).Some? && IsLegalTransition(ParseStatus(stored).value, to)
    ensures Admits(stored, Str(StatusName(to)))
    ensures StatusName(to) != ""
  {
    StatusNameRoundTrip(to, StatusName(to));
    AdmitsIff(stored, Str(StatusName(to)));
  }

  /** An independent statement of the table as its list of edges. */
  predicate ListedEdge(from: Status, to: Status) {
    || (from == PendingSuperadminReview && to == PendingAdminReview)
    || (from == PendingSuperadminReview && to == Rejected)
    || (from == PendingAdminReview && to == AssignedToEngineer)
    || (from == PendingAdminReview && to == Rejected)
    || (from == AssignedToEngineer && to == InProgress)
    || (from == InProgress && to == CompletedByEngineer)
    || (from == CompletedByEngineer && to == PendingMatrixApproval)
    || (from == PendingMatrixApproval && to == Approved)
    || (from == PendingMatrixApproval && to == Rejected)
  }

  /** Only the listed edges are legal; in particular no status moves to
      itself, and APPROVED and REJECTED have no way out. */
  lemma LegalExactlyListed(from: Status, to: Status)
    ensures IsLegalTransition(from, to) <==> ListedEdge(from, to)
    ensures !IsLegalTransition(from, from)
    ensures !IsLegalTransition(Approved, to) && !IsLegalTransition(Rejected, to)
  {
  }

  /** A stored status string that is not a key of the table admits nothing,
      and re-sending the stored status is never admitted. */
  lemma UnknownOrSameAdmitsNothing(stored: string, target: Value)
    ensures ParseStatus(stored).None? ==> !Admits(stored, target)
    ensures target == Str(stored) ==> !Admits(stored, target)
  {
    AdmitsIff(stored, target);
  }

  /** Position of a status along the review pipeline. */
  function Stage(s: Status): nat {
    match s
    case PendingSuperadminReview => 0
    case PendingAdminReview => 1
    case AssignedToEngineer => 2
    case InProgress => 3
    case CompletedByEngineer => 4
    case PendingMatrixApproval => 5
    case Approved => 6
    case Rejected => 6
  }

  /** Every legal transition moves strictly forward, so the graph has no
      cycles and no request can return to an earlier stage. */
  lemma TransitionsMoveForward(from: Status, to: Status)
    requires IsLegalTransition(from, to)
    ensures Stage(from) < Stage(to)
  {
  }

  /** The only path to approval: every stage, in order. */
  const ApprovalPath: seq<Status> :=
    [PendingSuperadminReview, PendingAdminReview, AssignedToEngineer, InProgress,
     CompletedByEngineer, PendingMatrixApproval, Approved]

  /** Each non-final stage of the approval path has exactly two ways out: the
      next stage or REJECTED (or only the next stage). */
  lemma PathSuccessor(i: nat, to: Status)
    requires i < 6
    requires IsLegalTransition(ApprovalPath[i], to)
    ensures to == ApprovalPath[i + 1] || to == Rejected
  {
  }
}

=== FILE: wrappers.dfy ===
/** Failure-carrying datatypes shared by every module of the model. */
module Wrappers {

  /** A value that may be absent: JavaScript `null`/`undefined` at an API boundary. */
  datatype Option<+T> = None | Some(value: T)

  /** The outcome of a helper that either returns a value or throws. */
  datatype Result<+R, +E> = Success(value: R) | Failure(error: E)

  /** The outcome of a helper that returns nothing or throws. */
  datatype Outcome<+E> = Pass | Fail(error: E)
}
